=== FILE: README.md ===
# Form builder front end: a Dafny model of its state transitions

This project models the pure logic of a React form-builder front end: the one a creator uses
to build forms page by page and a respondent uses to fill them in. Each React event handler is
one atomic, pure function over an explicit state record. Server calls, toasts and navigation
are inputs or outputs of those functions:

- the outcome of a save, a user lookup, a signup or a password reset is a boolean or option parameter;
- a toast or navigation is an effect value in the result.

Modules and what they cover:

- `FormModel`: the form document. Questions, options, settings, page layouts and pages. Also the
  `conditionalLogic` field of a page, as a sum type of the five shapes it takes in the program:
  - `Absent`;
  - a single rule object `OneRule` (what the builder writes);
  - a rule array `RuleList` (what the viewer reads);
  - the modal's `{conditionalLogic: ...}` wrapper `Wrapped`;
  - a bare modal object `Bare`.
- `Navigation`: the respondent's viewer. Rule evaluation, Next, Previous, recording answers,
  and the submitted answers payload.
- `Sections`: grouping a page layout into coloured sections, in the viewer and the preview.
- `Preview`: the preview's linear Next and Previous, and its inert submit.
- `Builder`: the builder's document edits. Questions, options, sections, pages, the
  condition-selection mode, the publish routing and the question-type labels.
- `Renderer`: how a rendered question turns input into an answer. Checkbox, file upload, file
  removal, linear scale and rating.
- `LogicModal`: the conditional-logic modal. Jump targets, save, clear and initial selections.
- `Sharing`: the publish modal. Share list, adding users, permission changes and the
  access-control payload.
- `Credentials`, `ForgotPassword`, `ResetModal`, `Signup`: OTP sanitisation and password
  validation on the three credential screens.
- `Templates`: the template search filter and the draft a template creates.
- `Profile`: the editable profile record, its dirty flag and the avatar initials.
- `Integration`: how the builder, the modal and the viewer fit together through
  `conditionalLogic`.
- `Wrappers`, `Strings`, `Arrays`: the JavaScript idioms used above. `||` on strings and
  numbers, `replace(/\D/g, '')`, `includes`, `split`, `padStart`, ASCII case mapping, and
  `filter`-based toggling.

Several facts about the program as written are proved rather than assumed:

- The viewer acts only on a rule array, and the builder and the modal never write one. So every
  form the builder produces is walked strictly in order, whatever the answers
  (`Integration.BuiltFormsAreLinear`). On such forms Next is exactly the preview's Next.
- The modal reads `trueRedirect`/`falseRedirect` from the page's logic, but saves them one
  level deeper, inside `{conditionalLogic: ...}`. Reopening the modal after a save therefore
  always shows no selection (`LogicModal.SaveThenReopenForgets`,
  `Integration.ModalForgetsSavedSelection`).
- Publishing counts only a single rule object with conditions as configured logic. Logic saved
  through the modal is invisible to that routing (`Integration.ModalLogicInvisibleToPublish`).
- Rule evaluation does not stop at the first rule with conditions. A failing rule without a
  `failRedirect` is passed over and later rules are still examined.
- A redirect to a page id that no page has leaves the respondent on the current page. It does
  not fall back to advancing.
- Toggling a checkbox or a condition key twice restores the list when the key was absent at
  first (`Arrays.ToggleTwiceAbsent`), or present exactly once and last
  (`Arrays.ToggleTwiceLast`). Otherwise the key comes back once, at the end, and every other
  occurrence is gone (`Arrays.ToggleTwiceReorders`).
- The preview's fallback section, used when grouping yields nothing, is always empty. Both
  resolve the same ids through the same lookup (`Sections.PreviewFallbackIsEmpty`).
- A new file-upload question gets three options, but retyping a question to file-upload clears
  its options (`Builder.FileUploadOptionsDependOnPath`).
- The reset-password modal (`ForgotPasswordModalFlow`) accepts passwords of six characters.
  The forgot-password page requires eight (`ResetModal.ModalLooserThanPage`).
- On the forgot-password page the OTP input exists only on step 2, and the password inputs only
  on step 3. So the password step is only ever open with six OTP digits, and every reset request
  carries them (`ForgotPassword.ResetCarriesCompleteOtp`). No control calls `handleCloseModal`,
  so the model's event run never closes the modal.

## Model

| member | source | states |
|---|---|---|
| `Navigation.ConditionHolds` | src/pages/FormViewer.js:63-76 | A condition on a field with no recorded answer holds exactly when its expected value is `undefined`: a missing answer never matches a defined value. |
| `Navigation.ScanRules` | src/pages/FormViewer.js:60-88 | A `fail` result always carries a truthy redirect id: a failing rule with no `failRedirect` never produces `fail`. |
| `Navigation.ScanRulesFirstDecisive` | src/pages/FormViewer.js:60-88 | The scan yields `none` iff no rule both has conditions and (has all of them met or has a truthy `failRedirect`); otherwise the first such rule decides, `pass` with its `passRedirect` when all conditions hold, else `fail` with its `failRedirect`. |
| `Navigation.EvaluateLogic` | src/pages/FormViewer.js:47-58 | Any logic that is not a rule array (absent, a single rule object, the modal's wrapper or a bare modal object) evaluates to `none`; an array is scanned in order. |
| `Navigation.NextPage` | src/pages/FormViewer.js:92-115 | Next stays within the pages. After a `pass`/`fail` with a truthy redirect id it goes to the first page with that id, or stays put when none has it. Otherwise it advances by exactly one, except on the last page, where it stays. |
| `Navigation.PrevPage` | src/pages/FormViewer.js:144-148 | Previous decrements only when the index is positive. |
| `Navigation.RecordAnswer` | src/pages/FormViewer.js:40-45 | Recording an answer sets that question's answer, keeps every other answer, and adds no other key. |
| `Navigation.RunStaysInBounds` | src/pages/FormViewer.js:92-162 | Over any sequence of Next, Previous and input events the page index stays in `[0, pages.length)` and recorded questions are never forgotten. |
| `Navigation.NavigationKeepsResponses` | src/pages/FormViewer.js:92-148 | Next and Previous never alter the recorded answers. |
| `Navigation.AnswersPayload` | src/pages/FormViewer.js:127-130 | The payload has exactly one `{questionId, answer}` entry per recorded key, each carrying that key's answer, with no question twice. |
| `Sections.BreakColor` | src/pages/FormViewer.js:186-189 | A section opened by a break takes the break's colour if truthy, else the design's section colour if truthy, else white. |
| `Sections.LastBreakOpensSection` | src/pages/FormViewer.js:172-195 | Grouping a layout is the grouping of what precedes its last section break, followed by one section in that break's colour (`item.color`, else the design colour, else white) holding the questions after the break, or nothing when none resolve. |
| `Sections.GroupLayoutContents` | src/pages/FormViewer.js:172-195 | Grouping loses and invents nothing: the sections' questions, in order, are exactly the layout ids that resolve to questions (unknown ids dropped), and no section is empty. |
| `Sections.NoBreakOneSection` | src/pages/FormPreview.js:86-108 | Without any section break, grouping gives one section (in the open section's colour) holding all resolvable questions, or none when nothing resolves. |
| `Sections.GroupEmptyIffNothingResolves` | src/pages/FormPreview.js:89-110 | Grouping yields no section exactly when no layout id resolves to a question. |
| `Sections.PreviewSections` | src/pages/FormPreview.js:110-115 | The preview always renders at least one section, and uses the grouping unchanged whenever it is non-empty. |
| `Sections.PreviewFallbackIsEmpty` | src/pages/FormPreview.js:75-115 | When grouping yields nothing, the fallback section is a single white section with no questions. |
| `Preview.PreviewPrev` | src/pages/FormPreview.js:58-62 | Previous moves back one page above the first and otherwise stays. |
| `Preview.PreviewNext` | src/pages/FormPreview.js:52-56 | The preview's Next advances by one unless on the last page, with no logic consulted. |
| `Preview.PreviewStaysInBounds` | src/pages/FormPreview.js:52-62 | The preview's Next and Previous keep the index among the pages. |
| `Preview.NextUndoesPrev` | src/pages/FormPreview.js:52-62 | Away from the first page, Previous then Next returns to the same page. |
| `Preview.PreviewSubmitAction` | src/pages/FormPreview.js:47-50 | Submitting the preview never posts answers. |
| `Builder.AddQuestion` | src/pages/FormBuilder.js:141-177 | The new question goes to the end of `questions` and keeps all earlier ones. Text, textarea, date, linear-scale and rating questions get no options; every other type gets three, none correct. Only the date, scale, rating or file type gets its settings. Its id is appended to the current page's layout only. |
| `Builder.AddSection` | src/pages/FormBuilder.js:182-197 | A white section break is appended to the current page's layout; other pages and the rest of the form are unchanged. |
| `Builder.AddSectionGroupsAsBefore` | src/pages/FormBuilder.js:182-197 | A new section changes no page's resolved questions or rendered sections until a question follows it. |
| `Builder.UpdateSection` | src/pages/FormBuilder.js:199-211 | Only section breaks with that id change colour, on every page; every other layout item and page field is unchanged. |
| `Builder.UpdateSectionKeepsQuestions` | src/pages/FormBuilder.js:199-211 | Recolouring a section moves no question: each page resolves the same questions, and its sections hold the same questions in order. |
| `Builder.UpdateQuestion` | src/pages/FormBuilder.js:213-220 | Questions with the id are patched; every other question is unchanged. |
| `Builder.UpdateQuestionAsSeenByFind` | src/pages/FormBuilder.js:213-220 | With an id-preserving patch, finding any other id gives the same question as before, and finding the edited id gives the patched first match. |
| `Builder.Retyped` | src/pages/FormBuilder.js:226-259 | Retyping resets all four settings and installs only the new type's defaults. It empties the options for text, textarea, date, linear-scale, rating and file-upload. Otherwise it keeps non-empty options and replaces empty ones with three default options. |
| `Builder.UpdateQuestionType` | src/pages/FormBuilder.js:222-261 | Nothing changes when no question has the id; otherwise every question with the id becomes the retyped first one and the rest are unchanged. |
| `Builder.AddOption` | src/pages/FormBuilder.js:263-269 | The target question gets one more option, labelled `Option {n+1}` and not correct, after its existing options in order; nothing else changes. |
| `Builder.UpdateOption` | src/pages/FormBuilder.js:271-278 | Within the target question only options with that id are patched; other questions are unchanged. |
| `Builder.UpdateOptionKeepsIds` | src/pages/FormBuilder.js:271-278 | With distinct question ids, editing an option's text keeps every question's option ids and their order, so distinct option ids stay distinct. |
| `Builder.RemoveById` | src/pages/FormBuilder.js:283 | Filtering by option id removes every option with that id and keeps every other option, each as many times as before, in order. |
| `Builder.RemoveOption` | src/pages/FormBuilder.js:280-285 | Nothing changes when the question is missing or has at most two options; otherwise exactly the options with that id are dropped from it. |
| `Builder.RemoveOptionKeepsTwo` | src/pages/FormBuilder.js:280-285 | A question with at least two options and distinct option ids never drops below two options. |
| `Builder.AddThenRemoveOption` | src/pages/FormBuilder.js:263-285 | With distinct question ids and a fresh option id, removing the option just added restores the questions when the question had at least two options. With fewer, the remove step is refused and the added option stays. |
| `Builder.ToggleConditionSelection` | src/pages/FormBuilder.js:312-322 | Outside selection mode nothing changes. Inside it, membership of `qid::oid` flips and no other key's membership changes. |
| `Builder.ToggleConditionTwice` | src/pages/FormBuilder.js:312-322 | Selecting an unselected answer and deselecting it restores the selection list exactly. |
| `Builder.AddCondition` | src/pages/FormBuilder.js:368-376 | Condition mode needs more than one page, and starts with no selection. |
| `Builder.UpdatePageConditionalLogic` | src/pages/FormBuilder.js:331-340 | The page with the id gets the update stored verbatim as its logic; every other page is unchanged. |
| `Builder.AddPage` | src/pages/FormBuilder.js:342-355 | The pages are kept and one page is appended. It has id `page-{n+1}` and name `Page NN` (zero-padded), and is inactive. It holds one grey section break and the empty rule object. |
| `Builder.AddPageKeepsIdsUnique` | src/pages/FormBuilder.js:342-355 | On pages numbered by the builder, adding a page keeps the numbering and never creates two pages with the same id. |
| `Builder.SwitchPage` | src/pages/FormBuilder.js:357-366 | A page is active exactly when its id is the target; nothing else about the pages changes. |
| `Builder.SwitchPageOneActive` | src/pages/FormBuilder.js:357-366 | With distinct page ids, switching to an existing page leaves exactly that page active. |
| `Builder.NormalizeLoadedPage` | src/pages/FormBuilder.js:80-84 | A loaded page keeps its layout and logic when present. An empty layout gets one grey section break, and missing logic becomes the empty rule object. |
| `Builder.PublishDecision` | src/pages/FormBuilder.js:389-408 | Publishing is refused without questions. After a save it goes to the logic flowchart iff some page's logic has a non-empty `conditions` array or there is more than one page, else to the preview. |
| `Builder.QuestionTypeLabel` | src/pages/FormBuilder.js:467-473 | The label is `Short Answer` exactly for text and for unknown types. |
| `Builder.TypeNameLabel` | src/pages/FormBuilder.js:467-473 | On the stored `type` string, the label is `Short Answer` exactly for `text` and for strings outside the type menu (inherited object property names aside, see below); `rating` is labelled `Rating`. |
| `FormModel.ParseType` | src/pages/FormBuilder.js:583-593 | A `type` string reads as `OtherType` exactly when it is not one of the eleven strings of the type menu. |
| `FormModel.TypeNameRoundTrip` | src/pages/FormBuilder.js:583-593 | Reading a `type` string and writing it back gives the same string, and every type reads back from the string it writes. |
| `Builder.LabelsDistinguishKnownTypes` | src/pages/FormBuilder.js:467-473 | Distinct known question types get distinct labels. |
| `Builder.FileUploadOptionsDependOnPath` | src/pages/FormBuilder.js:141-261 | A file-upload question created directly has three options, but one obtained by retyping has none. |
| `Renderer.ChooseOption` | src/components/QuestionRenderer.js:12-14 | Choosing a multiple-choice option records that option's id as the answer. |
| `Renderer.CheckboxChange` | src/components/QuestionRenderer.js:16-22 | A non-array value counts as nothing checked. A checked option is unchecked: every occurrence is removed and every other item, string or not, is kept as often as before and in order. An unchecked one is appended at the end. Every other option keeps its state. |
| `Renderer.CheckboxTwiceRestores` | src/components/QuestionRenderer.js:16-22 | Checking an unchecked option and unchecking it again gives back the original list. |
| `Renderer.MaxFiles` | src/components/QuestionRenderer.js:26 | The file limit is the question's `maxFiles` when set and non-zero, else 5. |
| `Renderer.FileUpload` | src/components/QuestionRenderer.js:24-42 | More files than the limit are refused and the answer is not changed; otherwise the answer becomes one record per file, in order. |
| `Renderer.RemoveUploadedFile` | src/components/QuestionRenderer.js:268-270 | Removing file `i` removes exactly the entry at `i`: earlier entries stay put, later ones shift down by one. |
| `Renderer.UploadThenRemove` | src/components/QuestionRenderer.js:264-270 | Removing uploaded file `i` leaves exactly what uploading the other files would have recorded, and that smaller upload is within the limit. |
| `Renderer.ShownScaleValue` | src/components/QuestionRenderer.js:155-158 | The slider shows the recorded answer when defined, else `defaultValue` when non-zero, else `min` (itself defaulting to 0). |
| `Renderer.MoveSlider` | src/components/QuestionRenderer.js:172 | Moving the slider records the integer position. |
| `Renderer.SliderShowsRecorded` | src/components/QuestionRenderer.js:155-172 | Once the slider has moved, it shows the recorded position whatever the settings. |
| `Renderer.UnansweredShownInRange` | src/components/QuestionRenderer.js:155-158 | With no answer, the slider starts within `[min, max]` whenever the default is unset or within that range. |
| `Renderer.CurrentRating` | src/components/QuestionRenderer.js:185-188 | A recorded integer is the rating; anything else (no answer included) reads as 0. |
| `Renderer.ClickStar` | src/components/QuestionRenderer.js:191-198 | Clicking a star records its number, which becomes the rating shown. |
| `Renderer.ClickStarFillsPrefix` | src/components/QuestionRenderer.js:185-199 | After clicking star `k`, star `i` is filled exactly when `i <= k`. |
| `LogicModal.AvailablePages` | src/components/ConditionalLogicModal.js:19 | The jump targets are the pages other than the current one, in order: all of them and only them. |
| `LogicModal.AvailablePagesCount` | src/components/ConditionalLogicModal.js:19 | With distinct page ids and the current page among them, every other page is offered. |
| `LogicModal.SinglePageOffersNothing` | src/components/ConditionalLogicModal.js:49-76 | On a form whose only page is the current one, the selectors are not offered. |
| `LogicModal.InitialSelection` | src/components/ConditionalLogicModal.js:11-16 | Selections are read from `trueRedirect`/`falseRedirect`, which only a bare modal object has. Every rule shape, the wrapper and absent logic read as no selection. |
| `LogicModal.SaveLogic` | src/components/ConditionalLogicModal.js:21-38 | Save emits a wrapper. It holds `null` exactly when both selections are empty, else an enabled `AND` logic with both selections. |
| `LogicModal.ClearLogic` | src/components/ConditionalLogicModal.js:40-47 | Clear resets both selections and emits what saving no selection emits. |
| `LogicModal.SaveThenReopenForgets` | src/components/ConditionalLogicModal.js:11-35 | Whatever was saved, reopening the modal on the saved logic starts with no selection. |
| `Sharing.OthersOf` | src/components/PublishModal.js:56-64 | A stored entry appears as a non-owner row iff its email is not the owner's; each such entry appears as many times as it is stored, in stored order; without an owner the rows are all the stored entries. |
| `Sharing.InitialShareList` | src/components/PublishModal.js:47-70 | With an owner, the list starts with the owner's own row (level edit). The stored entries with a different email follow as non-owner rows. Without an owner, only those rows. Only the first row is the owner's. |
| `Sharing.InitialVisibility` | src/components/PublishModal.js:72-73 | Visibility starts restricted iff some access was stored, else public. |
| `Sharing.AddSharedUser` | src/components/PublishModal.js:89-121 | An email without `@` is rejected first, then one already listed. A failed lookup or missing owner adds nothing. Otherwise exactly one row is appended: view level, not owner, granted by the owner. |
| `Sharing.AddKeepsEmailsDistinct` | src/components/PublishModal.js:95-112 | Adding never creates a second row for an email. |
| `Sharing.DropEmail` | src/components/PublishModal.js:123-133 | No row with the email is left; every other row is kept as many times as it was listed, in list order. |
| `Sharing.PermissionChange` | src/components/PublishModal.js:123-133 | `remove` deletes every row with that email. Any other level is set on exactly the rows with that email, and no other row changes. |
| `Sharing.PermissionChangeKeepsEmailsDistinct` | src/components/PublishModal.js:123-133 | Permission changes never create a second row for an email. |
| `Sharing.PublishableRows` | src/components/PublishModal.js:138-139 | The rows kept for publishing are exactly the non-owner rows not marked `remove`, each as many times as listed, in list order. |
| `Sharing.PublishedEntries` | src/components/PublishModal.js:138-145 | The payload is those rows as entries, position by position: no owner row and no `remove` entry, and every publishable row. |
| `Sharing.PublishPayload` | src/components/PublishModal.js:135-156 | The publish request carries the selected visibility and project id with those entries. |
| `Sharing.PublishUnchangedRoundTrip` | src/components/PublishModal.js:47-145 | Opening the modal and publishing with no edits sends back the stored entries, minus the owner's email and `remove` entries, in the same order. |
| `Credentials.OtpInput` | src/pages/ForgotPassword.js:25-35 | The typed value's digits, in order (`Strings.KeepDigits`), become the field when there are at most six of them; more than six leave the field unchanged. A well-formed OTP stays well formed. |
| `Credentials.OtpInputExamples` | src/pages/ForgotPassword.js:25-35 | Typing seven digits into `12` keeps `12`; typing `12-34` stores `1234`. |
| `ResetModal.TypeOtp` | src/components/ForgotPasswordModalFlow.js:125-130 | The modal's OTP box stores the typed digits when there are at most six and otherwise keeps its value; the step and the passwords are untouched. |
| `Credentials.OtpInputAcceptsDigits` | src/components/ForgotPasswordModalFlow.js:125-130 | Typing at most six digits sets the field to exactly them. |
| `Credentials.OtpStaysWellFormed` | src/components/ForgotPasswordModalFlow.js:125-130 | Over any sequence of inputs the OTP stays a digit string of at most six characters. |
| `Credentials.CheckPassword` | src/pages/Signup.js:30-38 | A mismatch is reported iff the passwords differ, regardless of length. Too short iff they match but are below the minimum. Accepted iff they match and reach it. |
| `ForgotPassword.Change` | src/pages/ForgotPassword.js:22-41 | The OTP field goes through the digit sanitiser, any other field takes the typed value, and no other field changes. |
| `ForgotPassword.SubmitEmail` | src/pages/ForgotPassword.js:43-57 | The OTP is requested for the entered email; success opens the OTP step, failure leaves the step. |
| `ForgotPassword.VerifyOtp` | src/pages/ForgotPassword.js:59-69 | The password step opens iff the OTP has exactly six characters; otherwise nothing changes and an error shows. |
| `ForgotPassword.ResetPassword` | src/pages/ForgotPassword.js:71-98 | The reset is requested with email, OTP and new password iff the passwords match and have at least eight characters. |
| `ForgotPassword.CloseModal` | src/pages/ForgotPassword.js:100-108 | Closing returns to the email step, keeps the email, and clears the OTP and both passwords. |
| `ForgotPassword.RunKeepsInvariant` | src/pages/ForgotPassword.js:22-350 | Any run of the events the page renders keeps the OTP a digit string of at most six characters, and the password step open only with six of them. |
| `ForgotPassword.ResetCarriesCompleteOtp` | src/pages/ForgotPassword.js:59-350 | Whatever the user does, a reset request sent from the password step carries a six-digit OTP. |
| `ResetModal.VerifyOtp` | src/components/ForgotPasswordModalFlow.js:27-37 | The password step opens iff the OTP has exactly six characters. |
| `ResetModal.CheckModalPassword` | src/components/ForgotPasswordModalFlow.js:40-54 | An empty field is reported first, then a mismatch, then fewer than six characters. |
| `ResetModal.ResetPassword` | src/components/ForgotPasswordModalFlow.js:40-69 | The reset is requested for the caller's email, with the OTP and new password, iff the modal's check accepts. |
| `ResetModal.BackToOtp` | src/components/ForgotPasswordModalFlow.js:71-78 | Back-to-OTP returns to the OTP step, keeps the OTP and clears both passwords. |
| `ResetModal.BackThenVerify` | src/components/ForgotPasswordModalFlow.js:27-78 | Going back to the OTP step with a complete OTP and confirming again reopens the password step with both passwords cleared. |
| `ResetModal.ModalLooserThanPage` | src/components/ForgotPasswordModalFlow.js:51-54 | Every password the forgot-password page accepts, the modal accepts too; a six-character one is accepted by the modal and refused by the page. |
| `Signup.Change` | src/pages/Signup.js:20-25 | A change sets the named field and leaves every other field alone. |
| `Signup.ChangeBackRestores` | src/pages/Signup.js:20-25 | Typing a field's previous value back restores the form exactly. |
| `Signup.Submit` | src/pages/Signup.js:27-52 | Mismatch is rejected before length. Below eight characters is rejected. Signup is called with name, email and password iff both checks pass. |
| `Templates.Filter` | src/pages/Templates.js:116-122 | A template is kept iff its title or description contains the term, ignoring case, and the category is `all` or its own. The result is an order-preserving subsequence that keeps every shown template as many times as listed. |
| `Templates.EmptySearchKeepsAll` | src/pages/Templates.js:116-122 | An empty search with category `all` keeps every template. |
| `Templates.FilterIdempotent` | src/pages/Templates.js:116-122 | Filtering the filtered list again changes nothing. |
| `Templates.SearchIgnoresCase` | src/pages/Templates.js:117-118 | Typing the term in capitals selects the same templates. |
| `Templates.UseTemplate` | src/pages/Templates.js:98-106 | A template creates a draft with its title, description, questions and design. |
| `Templates.SameDraftIffSameContent` | src/pages/Templates.js:98-106 | Two templates give the same draft exactly when they agree on title, description, questions and design. |
| `Templates.DraftMatchesSearch` | src/pages/Templates.js:98-122 | A draft started from a template on screen has the search term, ignoring case, in its title or description. |
| `Profile.Set` | src/pages/Profile.js:66-71 | Setting a field changes only that field's value. An existing key keeps its position: the pair at the key's first position takes the new value and every other pair stays where it was. A new key is appended. |
| `Profile.SetSameValueUnchanged` | src/pages/Profile.js:66-71 | Setting a field to the value it already holds gives the same record back. |
| `Profile.InputSameValueKeepsState` | src/pages/Profile.js:66-94 | Typing a field's current value changes nothing, so a clean page stays clean. |
| `Profile.SetBackRestores` | src/pages/Profile.js:66-71 | Setting an existing field back to its previous value restores the record exactly. |
| `Profile.SetNewKeyChanges` | src/pages/Profile.js:66-94 | Typing into a field the record lacks always makes it differ from before. |
| `Profile.InitialState` | src/pages/Profile.js:9-33 | With a user, profile and original coincide and nothing is dirty. Without one, the original is empty and the page is dirty. |
| `Profile.InputChange` | src/pages/Profile.js:66-71 | An input change updates only the named field, in place (the record `Profile.Set` gives), and never the original. |
| `Profile.Discard` | src/pages/Profile.js:89-92 | Discard restores the original, so there is nothing left to save. |
| `Profile.Save` | src/pages/Profile.js:73-87 | A successful save makes the current profile the original, so nothing is dirty; a failed one changes nothing. |
| `Profile.EditAndRevert` | src/pages/Profile.js:22-94 | Editing a loaded profile field and typing the old value back leaves nothing to save. |
| `Profile.Initials` | src/pages/Profile.js:96-103 | Initials have at most two characters, none a space. |
| `Profile.FirstCharsOfSplit` | src/pages/Profile.js:97-100 | Splitting on spaces and joining first characters gives exactly the non-space characters that start a word. |
| `Profile.InitialsAreWordStarts` | src/pages/Profile.js:96-103 | The initials are the first two word-start characters, upper-cased. |
| `Profile.AvatarInitials` | src/pages/Profile.js:123 | The avatar shows `U` for an empty name, and the name's initials otherwise. |
| `Profile.AvatarBlankIffSpaces` | src/pages/Profile.js:96-123 | The avatar is blank exactly for a non-empty name made only of spaces. |
| `Integration.InitialPageHasBuilderShape` | src/pages/FormBuilder.js:30 | The page the builder starts with holds the single rule object, not a rule array. |
| `Integration.EditsKeepBuilderShapes` | src/pages/FormBuilder.js:331-355 | Starting from pages without a rule array, adding pages, normalising loaded pages and storing the modal's save or clear never put a rule array on any page. |
| `Integration.BuiltFormsAreLinear` | src/pages/FormViewer.js:55-58 | On any form built that way, Next advances by one (or stays on the last page), whatever the answers. |
| `Integration.ViewerMatchesPreviewOnBuiltForms` | src/pages/FormPreview.js:52-56 | On such forms the viewer's Next is exactly the preview's Next. |
| `Integration.ModalLogicInvisibleToPublish` | src/pages/FormBuilder.js:396-403 | A one-page form whose logic was saved through the modal goes to the preview, not the flowchart. |
| `Integration.ModalForgetsSavedSelection` | src/pages/FormBuilder.js:698 | After the builder stores the modal's output on a page, reopening the modal there shows no selection. |
| `Integration.ScenarioNavigation` | src/pages/FormViewer.js:47-115 | On a three-page form whose first page holds a rule `q1 == "yes"` → P3, else P2: answering `yes` goes to P3, `no` to P2, and no answer to P2. |
| `Arrays.Toggle` | src/components/QuestionRenderer.js:18-20 | Toggling flips the value's membership and keeps every other value's. An absent value is appended at the end; a present one is dropped, every other value kept as many times as before and in order. |
| `Arrays.Without` | src/components/QuestionRenderer.js:18-20 | Filtering out a value drops every occurrence and keeps every other value as many times as before, in order. |
| `Arrays.ToggleTwiceLast` | src/pages/FormBuilder.js:315-320 | Toggling twice a value that occurs once, at the end, gives the original sequence back. |
| `Arrays.ToggleTwiceAbsent` | src/pages/FormBuilder.js:315-320 | Toggling an absent value twice gives the original sequence back. |
| `Arrays.ToggleTwiceReorders` | src/pages/FormBuilder.js:315-320 | Toggling a present value twice need not restore the order: `[a, b]` becomes `[b, a]`. |
| `Strings.KeepDigits` | src/pages/ForgotPassword.js:27-28 | The result holds only digits, is an order-preserving subsequence of the input, and keeps every digit as many times as it occurs. |
| `Strings.KeepDigitsOfDigits` | src/pages/ForgotPassword.js:27 | Stripping non-digits from a digit string leaves it unchanged. |
| `Strings.ContainsAt` | src/pages/Templates.js:117-118 | `includes` holds iff the needle occurs as a slice at some position. |
| `Strings.ParseNatToString` | src/pages/FormBuilder.js:343-345 | A page number printed in decimal reads back as the same number, so page ids `page-{n}` are distinct for distinct `n`. |
| `Strings.PadStart` | src/pages/FormBuilder.js:346 | Padding yields at least the width, leaves long enough strings alone, and only prefixes pad characters. |
| `Strings.Split` | src/pages/Profile.js:98 | Splitting yields at least one piece, no piece contains the separator, and joining the pieces with it gives the string back. |
| `Strings.SplitJoin` | src/pages/Profile.js:98 | Splitting pieces that were joined, none holding the separator, gives the pieces back. |

## Left out

- Network calls, `localStorage`, toasts, `alert`, `setTimeout` and route navigation. Their outcomes are parameters, and their effects are result values or are dropped.
- Loading and saving flags, the password-visibility toggles, and `handleResendOTP`. These are UI state with no logic beyond a server call.
- Typing into the reset modal's password boxes. This is a plain field set, the same as `Signup.Change`.
- The generator of fresh ids. Ids are parameters. Where a fact needs fresh ids, it says so in its hypotheses (`Builder.AddThenRemoveOption`, `Builder.UpdateOptionKeepsIds`).
- Copying the share link, the builder's design edits and drag-and-drop. These are outside the modelled handlers.
- The Answer model: strings, booleans and integers only. JavaScript floating-point numbers, objects and `parseInt` of the slider value are not represented.
- The browser `File` object kept in each uploaded file record.
- Case mapping is ASCII only. Unicode `toLowerCase`/`toUpperCase` are not modelled.
- React's state batching. Each handler is one atomic transition.
- `Navigation.AnswersPayload`: does not fix the payload's order. `Object.keys` order (insertion order, integer-like keys first) is not modelled; the contract speaks of keys and entries only.
- `Builder.TypeNameLabel`: names of inherited `Object.prototype` properties (`constructor`, `toString`, `valueOf`, `hasOwnProperty`, `__proto__` and the like) are not modelled. The source's `typeMap[type]` finds a truthy inherited value for them and returns it instead of `Short Answer`; the model labels them `Short Answer`.
- `Renderer.CurrentRating`: only integer answers count as a rating, and anything else reads as 0. JavaScript's coercion of a string rating in `<=` is not modelled.
- Lengths and first characters count Unicode code points, not the UTF-16 code units JavaScript's `.length`, `charAt` and `slice` count. A character outside the Basic Multilingual Plane counts once here and twice in the browser. The lines below name the members this affects.
- `Credentials.CheckPassword`: the minimum length is counted in code points. A password of seven code points including one astral character passes the browser's eight-unit check but is rejected here.
- `Signup.Submit`: the eight-character minimum is counted in code points, as for `Credentials.CheckPassword`.
- `ForgotPassword.ResetPassword`: the eight-character minimum is counted in code points, as for `Credentials.CheckPassword`.
- `ResetModal.CheckModalPassword`: the six-character minimum is counted in code points, as for `Credentials.CheckPassword`.
- `Profile.Initials`: `charAt(0)` is a whole code point here. In the browser, a word starting with an astral character gives half of a surrogate pair.
- `Sections.BreakColor`: `design.sectionColor` is a string, so a missing one is represented by the empty string. Both are falsy, so the colour chosen is the same.
- `Sharing.AddSharedUser`: the lookup is one parameter. A thrown request and a missing owner both read as "nothing added".

=== FILE: arrays.dfy ===
/** Array operations the handlers use: `filter(x => x !== v)`, `includes` and the toggle built from them. */
module Arrays {

  /** `xs.filter(y => y !== x)`: every occurrence of `x` dropped, the rest kept in order. */
  function Without<T(==,!new)>(xs: seq<T>, x: T): (r: seq<T>)
    ensures x !in r
    ensures forall y :: y != x ==> (y in r <==> y in xs)
    ensures |r| <= |xs|
    ensures x !in xs ==> r == xs
    ensures forall y :: y != x ==> Count(r, y) == Count(xs, y)
    ensures IsSubsequence(r, xs)
  {
    if xs == [] then []
    else if xs[0] == x then Without(xs[1..], x)
    else
      var rest := Without(xs[1..], x);
      assert ([xs[0]] + rest)[1..] == rest;
      [xs[0]] + rest
  }

  lemma {:induction false} WithoutAppend<T(!new)>(a: seq<T>, b: seq<T>, x: T)
    ensures Without(a + b, x) == Without(a, x) + Without(b, x)
  {
    if a == [] {
      assert a + b == b;
    } else {
      assert (a + b)[1..] == a[1..] + b;
      WithoutAppend(a[1..], b, x);
    }
  }

  /** Removing a value that occurs at most once shortens the sequence by at most one. */
  lemma {:induction false} WithoutAtMostOnce<T(!new)>(xs: seq<T>, x: T)
    requires forall i, j :: 0 <= i < j < |xs| && xs[i] == x ==> xs[j] != x
    ensures |Without(xs, x)| >= |xs| - 1
  {
    if xs != [] {
      if xs[0] == x {
        assert x !in xs[1..] by {
          forall j | 0 <= j < |xs[1..]| ensures xs[1..][j] != x {
            assert xs[j + 1] != x;
          }
        }
      } else {
        WithoutAtMostOnce(xs[1..], x);
      }
    }
  }

  /** Add `x` at the end when absent, drop every occurrence when present. */
  function Toggle<T(==,!new)>(xs: seq<T>, x: T): (r: seq<T>)
    ensures x in r <==> x !in xs
    ensures forall y :: y != x ==> (y in r <==> y in xs)
    ensures x !in xs ==> r == xs + [x]
    ensures x in xs ==> IsSubsequence(r, xs) && forall y :: y != x ==> Count(r, y) == Count(xs, y)
  {
    if x in xs then Without(xs, x) else xs + [x]
  }

  /** Toggling an absent value twice gives the original sequence back. */
  lemma ToggleTwiceAbsent<T(!new)>(xs: seq<T>, x: T)
    requires x !in xs
    ensures Toggle(Toggle(xs, x), x) == xs
  {
    WithoutAppend(xs, [x], x);
    assert Without([x], x) == [];
  }

  /** Toggling a value that occurs once, at the end, twice also gives the sequence back. */
  lemma ToggleTwiceLast<T(!new)>(ys: seq<T>, x: T)
    requires x !in ys
    ensures Toggle(Toggle(ys + [x], x), x) == ys + [x]
  {
    assert x in ys + [x];
    WithoutAppend(ys, [x], x);
    assert Without([x], x) == [];
  }

  /** Toggling a present value twice moves it to the end, so the order is not restored:
      `[a, b]` becomes `[b]` and then `[b, a]`. */
  lemma ToggleTwiceReorders()
    ensures Toggle(Toggle(["a", "b"], "a"), "a") == ["b", "a"]
    ensures Toggle(Toggle(["a", "b"], "a"), "a") != ["a", "b"]
  {
    assert "a" in ["a", "b"];
    assert Without(["a", "b"], "a") == ["b"] by {
      assert ["a", "b"][1..] == ["b"];
      assert ["b"][1..] == [];
    }
    assert "a" !in ["b"];
  }

  /** How many times `x` occurs in `xs`. */
  function Count<T(==)>(xs: seq<T>, x: T): nat {
    if xs == [] then 0 else (if xs[0] == x then 1 else 0) + Count(xs[1..], x)
  }

  /** `a` is an order-preserving subsequence of `b`. */
  predicate IsSubsequence<T(==,!new)>(a: seq<T>, b: seq<T>) {
    if a == [] then true
    else if b == [] then false
    else if a[0] == b[0] then IsSubsequence(a[1..], b[1..])
    else IsSubsequence(a, b[1..])
  }
}

=== FILE: builder.dfy ===
/** The form builder's document edits: each handler is one pure update of the form. Fresh ids
    from the id generator arrive as parameters. */
module Builder {
  import opened Wrappers
  import opened FormModel
  import Strings
  import Arrays
  import Sections

  const RatingTitle := "Rate us on scale 1 to 5 ?"
  const DefaultTitle := "What is ?"
  const DefaultDate := DateSettings("DD/MM/YYYY")
  const DefaultScale := LinearScaleSettings(0, 10, "Scale Starting", "Scale Ending", 5)
  const DefaultRating := RatingSettings(5, 5)
  const DefaultFiles := FileSettings(5, "5mb", ["image", "pdf", "ppt", "document", "video", "zip", "audio", "spreadsheet"])
  const SectionGrey := "#DDDDDD"

  /** The rule object every new page starts with. */
  const EmptyLogic := OneRule(Rule(Some([]), None, None))

  /** Three fresh option ids. */
  type OptionIds = (string, string, string)

  function DefaultOptions(ids: OptionIds): (r: seq<AnswerOption>)
    ensures |r| == 3
    ensures forall i :: 0 <= i < 3 ==> !r[i].isCorrect
  {
    [AnswerOption(ids.0, "Option 01", false), AnswerOption(ids.1, "Option 02", false), AnswerOption(ids.2, "Option 03", false)]
  }

  /** Types that `addQuestion` creates without options. */
  predicate OptionlessOnAdd(t: QuestionType) {
    t.Text? || t.Textarea? || t.Date? || t.LinearScale? || t.Rating?
  }

  /** Types that `updateQuestionType` empties the options of. */
  predicate OptionlessOnRetype(t: QuestionType) {
    OptionlessOnAdd(t) || t.FileUpload?
  }

  /** Whether a question's settings are exactly the defaults its type installs. */
  predicate DefaultSettingsFor(q: Question, t: QuestionType) {
    && q.dateSettings == (if t.Date? then Some(DefaultDate) else None)
    && q.linearScaleSettings == (if t.LinearScale? then Some(DefaultScale) else None)
    && q.ratingSettings == (if t.Rating? then Some(DefaultRating) else None)
    && q.fileSettings == (if t.FileUpload? then Some(DefaultFiles) else None)
  }

  function NewQuestion(t: QuestionType, id: string, optionIds: OptionIds, order: int, pageId: string): (q: Question)
    ensures q.id == id && q.qtype == t && q.order == order && q.pageId == pageId
    ensures q.title == (if t.Rating? then RatingTitle else DefaultTitle)
    ensures OptionlessOnAdd(t) ==> q.options == []
    ensures !OptionlessOnAdd(t) ==> |q.options| == 3 && forall i :: 0 <= i < 3 ==> !q.options[i].isCorrect
    ensures DefaultSettingsFor(q, t)
    ensures !q.required && q.content == ""
  {
    Question(
      id, t,
      if t.Rating? then RatingTitle else DefaultTitle,
      "",
      if OptionlessOnAdd(t) then [] else DefaultOptions(optionIds),
      false, order, pageId,
      if t.Date? then Some(DefaultDate) else None,
      if t.LinearScale? then Some(DefaultScale) else None,
      if t.Rating? then Some(DefaultRating) else None,
      if t.FileUpload? then Some(DefaultFiles) else None)
  }

  /** Pages other than `pageId` are unchanged; pages with that id keep everything but their layout. */
  predicate OnlyLayoutOf(pages: seq<Page>, pages': seq<Page>, pageId: string) {
    && |pages'| == |pages|
    && forall i :: 0 <= i < |pages| ==>
         if pages[i].id == pageId then pages'[i] == pages[i].(layout := pages'[i].layout)
         else pages'[i] == pages[i]
  }

  /** Append `item` to the layout of every page with id `pageId`. */
  function AppendToPage(pages: seq<Page>, pageId: string, item: LayoutItem): (r: seq<Page>)
    ensures OnlyLayoutOf(pages, r, pageId)
    ensures forall i :: 0 <= i < |pages| && pages[i].id == pageId ==> r[i].layout == pages[i].layout + [item]
  {
    seq(|pages|, i requires 0 <= i < |pages| =>
      if pages[i].id == pageId then pages[i].(layout := pages[i].layout + [item]) else pages[i])
  }

  /** `addQuestion`: the new question goes to the end of `questions` and its id to the end of
      the current page's layout; nothing else changes. */
  function AddQuestion(form: Form, currentPage: string, t: QuestionType, id: string, optionIds: OptionIds): (r: Form)
    ensures |r.questions| == |form.questions| + 1
    ensures r.questions[..|form.questions|] == form.questions
    ensures var q := r.questions[|form.questions|];
            && q.id == id && q.qtype == t && q.pageId == currentPage && q.order == |form.questions|
            && (OptionlessOnAdd(t) <==> q.options == [])
            && (!OptionlessOnAdd(t) ==> |q.options| == 3 && forall i :: 0 <= i < 3 ==> !q.options[i].isCorrect)
            && DefaultSettingsFor(q, t)
    ensures OnlyLayoutOf(form.pages, r.pages, currentPage)
    ensures forall i :: 0 <= i < |form.pages| && form.pages[i].id == currentPage ==>
              r.pages[i].layout == form.pages[i].layout + [QuestionRef(id)]
    ensures r == form.(questions := r.questions, pages := r.pages)
  {
    var q := NewQuestion(t, id, optionIds, |form.questions|, currentPage);
    assert (form.questions + [q])[..|form.questions|] == form.questions;
    form.(questions := form.questions + [q], pages := AppendToPage(form.pages, currentPage, QuestionRef(id)))
  }

  /** `addSection`: a white section break at the end of the current page's layout. */
  function AddSection(form: Form, currentPage: string, sectionId: string): (r: Form)
    ensures OnlyLayoutOf(form.pages, r.pages, currentPage)
    ensures forall i :: 0 <= i < |form.pages| && form.pages[i].id == currentPage ==>
              r.pages[i].layout == form.pages[i].layout + [SectionBreak(sectionId, Some("#ffffff"))]
    ensures r == form.(pages := r.pages)
  {
    form.(pages := AppendToPage(form.pages, currentPage, SectionBreak(sectionId, Some("#ffffff"))))
  }

  /** A new section is invisible until a question follows it: every page resolves the same
      questions and groups into the same sections as before, the new break opening a section
      that is dropped while empty. */
  lemma AddSectionGroupsAsBefore(form: Form, currentPage: string, sectionId: string, p: int)
    requires 0 <= p < |form.pages|
    ensures var r := AddSection(form, currentPage, sectionId);
            && Sections.ResolvedQuestions(r.pages[p].layout, r.questions) == Sections.ResolvedQuestions(form.pages[p].layout, form.questions)
            && Sections.GroupLayout(r.pages[p].layout, r.questions, r.design) == Sections.GroupLayout(form.pages[p].layout, form.questions, form.design)
  {
    var layout := form.pages[p].layout;
    if form.pages[p].id == currentPage {
      var brk := SectionBreak(sectionId, Some("#ffffff"));
      Sections.ResolvedAppend(layout, [brk], form.questions);
      assert Sections.ResolvedQuestions([brk], form.questions) == [];
      assert layout + [brk] + [] == layout + [brk];
      assert !Sections.HasBreak([]);
      Sections.LastBreakOpensSection(layout, sectionId, Some("#ffffff"), [], form.questions, form.design);
      assert Sections.GroupLayout(layout, form.questions, form.design) + [] == Sections.GroupLayout(layout, form.questions, form.design);
    }
  }

  /** Recolour the section breaks with id `sectionId` in one layout. */
  function RecolorBreaks(layout: seq<LayoutItem>, sectionId: string, color: string): (r: seq<LayoutItem>)
    ensures |r| == |layout|
    ensures forall i :: 0 <= i < |layout| ==>
              if layout[i].SectionBreak? && layout[i].id == sectionId then r[i] == SectionBreak(sectionId, Some(color))
              else r[i] == layout[i]
  {
    seq(|layout|, i requires 0 <= i < |layout| =>
      if layout[i].SectionBreak? && layout[i].id == sectionId then SectionBreak(sectionId, Some(color)) else layout[i])
  }

  /** `updateSection(sectionId, {color})`: only section breaks with that id change, on every page. */
  function UpdateSection(form: Form, sectionId: string, color: string): (r: Form)
    ensures |r.pages| == |form.pages|
    ensures forall p :: 0 <= p < |form.pages| ==>
              && r.pages[p] == form.pages[p].(layout := r.pages[p].layout)
              && |r.pages[p].layout| == |form.pages[p].layout|
              && forall i :: 0 <= i < |form.pages[p].layout| ==>
                   var item := form.pages[p].layout[i];
                   if item.SectionBreak? && item.id == sectionId then r.pages[p].layout[i] == SectionBreak(sectionId, Some(color))
                   else r.pages[p].layout[i] == item
    ensures r == form.(pages := r.pages)
  {
    form.(pages := seq(|form.pages|, p requires 0 <= p < |form.pages| =>
      form.pages[p].(layout := RecolorBreaks(form.pages[p].layout, sectionId, color))))
  }

  /** Recolouring a section moves no question: every page resolves the same questions, and its
      sections, read in order, hold the same questions as before. */
  lemma UpdateSectionKeepsQuestions(form: Form, sectionId: string, color: string, p: int)
    requires 0 <= p < |form.pages|
    ensures var r := UpdateSection(form, sectionId, color);
            && Sections.ResolvedQuestions(r.pages[p].layout, r.questions) == Sections.ResolvedQuestions(form.pages[p].layout, form.questions)
            && Sections.Flatten(Sections.GroupLayout(r.pages[p].layout, r.questions, r.design)) ==
               Sections.Flatten(Sections.GroupLayout(form.pages[p].layout, form.questions, form.design))
  {
    var r := UpdateSection(form, sectionId, color);
    Sections.ResolvedIgnoresBreaks(form.pages[p].layout, r.pages[p].layout, form.questions);
    Sections.GroupLayoutContents(r.pages[p].layout, r.questions, r.design);
    Sections.GroupLayoutContents(form.pages[p].layout, form.questions, form.design);
  }

  /** `updateQuestion(questionId, updates)`: every question with that id becomes `patch` of itself;
      every other question is unchanged. */
  function UpdateQuestion(questions: seq<Question>, questionId: string, patch: Question -> Question): (r: seq<Question>)
    ensures |r| == |questions|
    ensures forall i :: 0 <= i < |questions| ==>
              if questions[i].id == questionId then r[i] == patch(questions[i]) else r[i] == questions[i]
  {
    seq(|questions|, i requires 0 <= i < |questions| =>
      if questions[i].id == questionId then patch(questions[i]) else questions[i])
  }

  /** Seen through `find`: with a patch that keeps ids, looking up any other id finds the same
      question as before, and looking up the edited id finds the patched first match. */
  lemma UpdateQuestionAsSeenByFind(questions: seq<Question>, questionId: string, patch: Question -> Question, other: string)
    requires forall q :: patch(q).id == q.id
    ensures other != questionId ==>
              FindQuestion(UpdateQuestion(questions, questionId, patch), other) == FindQuestion(questions, other)
    ensures FindQuestion(questions, questionId).None? ==>
              FindQuestion(UpdateQuestion(questions, questionId, patch), questionId).None?
    ensures FindQuestion(questions, questionId).Some? ==>
              FindQuestion(UpdateQuestion(questions, questionId, patch), questionId) == Some(patch(FindQuestion(questions, questionId).value))
  {
    var r := UpdateQuestion(questions, questionId, patch);
    assert forall i :: 0 <= i < |questions| ==> r[i].id == questions[i].id;
    FindSameIds(questions, r, other, questionId, patch);
    FindSameIds(questions, r, questionId, questionId, patch);
  }

  /** Two question lists with the same ids in the same places: `find` lands on the same index. */
  lemma FindSameIds(a: seq<Question>, b: seq<Question>, id: string, edited: string, patch: Question -> Question)
    requires |a| == |b|
    requires forall i :: 0 <= i < |a| ==> b[i].id == a[i].id
    requires forall i :: 0 <= i < |a| ==> b[i] == if a[i].id == edited then patch(a[i]) else a[i]
    ensures FindQuestion(a, id).None? <==> FindQuestion(b, id).None?
    ensures FindQuestion(a, id).Some? ==>
              FindQuestion(b, id).value == if id == edited then patch(FindQuestion(a, id).value) else FindQuestion(a, id).value
  {
    var fa, fb := FindQuestion(a, id), FindQuestion(b, id);
    if fa.Some? {
      var k :| 0 <= k < |a| && a[k] == fa.value && fa.value.id == id && forall j :: 0 <= j < k ==> a[j].id != id;
      assert b[k].id == id;
      var m :| 0 <= m < |b| && b[m] == fb.value && fb.value.id == id && forall j :: 0 <= j < m ==> b[j].id != id;
      assert m == k by {
        assert !(k < m) by { assert b[k].id == id; }
      }
    }
  }

  /** The question `updateQuestionType` builds from `q`: the new type, all four settings reset,
      then the new type's defaults. */
  function Retyped(q: Question, t: QuestionType, optionIds: OptionIds): (r: Question)
    ensures r.qtype == t
    ensures DefaultSettingsFor(r, t)
    ensures OptionlessOnRetype(t) ==> r.options == []
    ensures !OptionlessOnRetype(t) && q.options != [] ==> r.options == q.options
    ensures !OptionlessOnRetype(t) && q.options == [] ==> r.options == DefaultOptions(optionIds)
    ensures r.title == (if t.Rating? then RatingTitle else q.title)
    ensures r.id == q.id && r.content == q.content && r.required == q.required
    ensures r.order == q.order && r.pageId == q.pageId
  {
    var reset := q.(qtype := t, dateSettings := None, linearScaleSettings := None, ratingSettings := None, fileSettings := None);
    match t
    case Text => reset.(options := [])
    case Textarea => reset.(options := [])
    case Date => reset.(options := [], dateSettings := Some(DefaultDate))
    case LinearScale => reset.(options := [], linearScaleSettings := Some(DefaultScale))
    case Rating => reset.(options := [], title := RatingTitle, ratingSettings := Some(DefaultRating))
    case FileUpload => reset.(options := [], fileSettings := Some(DefaultFiles))
    case _ => if q.options == [] then reset.(options := DefaultOptions(optionIds)) else reset
  }

  /** `updateQuestionType`: nothing when no question has the id; otherwise every question with
      that id becomes the retyped first one. */
  function UpdateQuestionType(questions: seq<Question>, questionId: string, t: QuestionType, optionIds: OptionIds): (r: seq<Question>)
    ensures FindQuestion(questions, questionId).None? ==> r == questions
    ensures |r| == |questions|
    ensures FindQuestion(questions, questionId).Some? ==>
              forall i :: 0 <= i < |questions| ==>
                if questions[i].id == questionId then r[i] == Retyped(FindQuestion(questions, questionId).value, t, optionIds)
                else r[i] == questions[i]
  {
    var found := FindQuestion(questions, questionId);
    if found.None? then questions
    else
      var updated := Retyped(found.value, t, optionIds);
      UpdateQuestion(questions, questionId, _ => updated)
  }

  /** The label of the option `addOption` appends to a question that has `n` options. */
  function NextOptionLabel(n: nat): string {
    "Option " + Strings.NatToString(n + 1)
  }

  /** Replace the options of every question with id `questionId`. */
  function SetOptions(questions: seq<Question>, questionId: string, options: seq<AnswerOption>): (r: seq<Question>)
    ensures |r| == |questions|
    ensures forall i :: 0 <= i < |questions| ==>
              if questions[i].id == questionId then r[i] == questions[i].(options := options) else r[i] == questions[i]
  {
    UpdateQuestion(questions, questionId, (q: Question) => q.(options := options))
  }

  /** `addOption`: one more option, not correct, labelled after the option count; the existing
      options stay in order. */
  function AddOption(questions: seq<Question>, questionId: string, newId: string): (r: seq<Question>)
    ensures FindQuestion(questions, questionId).None? ==> r == questions
    ensures |r| == |questions|
    ensures FindQuestion(questions, questionId).Some? ==>
              var before := FindQuestion(questions, questionId).value.options;
              forall i :: 0 <= i < |questions| ==>
                if questions[i].id == questionId then
                  && r[i] == questions[i].(options := r[i].options)
                  && |r[i].options| == |before| + 1
                  && r[i].options[..|before|] == before
                  && r[i].options[|before|] == AnswerOption(newId, NextOptionLabel(|before|), false)
                else r[i] == questions[i]
  {
    var found := FindQuestion(questions, questionId);
    if found.None? then questions
    else
      var before := found.value.options;
      var options := before + [AnswerOption(newId, NextOptionLabel(|before|), false)];
      assert options[..|before|] == before;
      SetOptions(questions, questionId, options)
  }

  /** `updateOption`: within the first question with that id, options with id `optionId`
      become `patch` of themselves; the rest stay. */
  function UpdateOption(questions: seq<Question>, questionId: string, optionId: string,
                        patch: AnswerOption -> AnswerOption): (r: seq<Question>)
    ensures FindQuestion(questions, questionId).None? ==> r == questions
    ensures |r| == |questions|
    ensures FindQuestion(questions, questionId).Some? ==>
              var before := FindQuestion(questions, questionId).value.options;
              forall i :: 0 <= i < |questions| ==>
                if questions[i].id == questionId then
                  && r[i] == questions[i].(options := r[i].options)
                  && |r[i].options| == |before|
                  && forall k :: 0 <= k < |before| ==>
                       r[i].options[k] == (if before[k].id == optionId then patch(before[k]) else before[k])
                else r[i] == questions[i]
  {
    var found := FindQuestion(questions, questionId);
    if found.None? then questions
    else
      var before := found.value.options;
      SetOptions(questions, questionId,
        seq(|before|, k requires 0 <= k < |before| => if before[k].id == optionId then patch(before[k]) else before[k]))
  }

  /** `options.filter(o => o.id !== optionId)`. */
  function RemoveById(options: seq<AnswerOption>, optionId: string): (r: seq<AnswerOption>)
    ensures forall k :: 0 <= k < |r| ==> r[k].id != optionId
    ensures forall o :: o in options && o.id != optionId ==> o in r
    ensures forall o :: o in r ==> o in options
    ensures Arrays.IsSubsequence(r, options)
    ensures |r| <= |options|
    ensures forall o: AnswerOption :: o.id != optionId ==> Arrays.Count(r, o) == Arrays.Count(options, o)
  {
    if options == [] then []
    else if options[0].id == optionId then RemoveById(options[1..], optionId)
    else
      var rest := RemoveById(options[1..], optionId);
      assert ([options[0]] + rest)[1..] == rest;
      [options[0]] + rest
  }

  predicate DistinctOptionIds(options: seq<AnswerOption>) {
    forall i, j :: 0 <= i < j < |options| ==> options[i].id != options[j].id
  }

  /** With distinct option ids, removing by id drops at most one option. */
  lemma {:induction false} RemoveByIdDropsAtMostOne(options: seq<AnswerOption>, optionId: string)
    requires DistinctOptionIds(options)
    ensures |RemoveById(options, optionId)| >= |options| - 1
  {
    if options != [] {
      assert DistinctOptionIds(options[1..]) by {
        forall i, j | 0 <= i < j < |options[1..]| ensures options[1..][i].id != options[1..][j].id {
          assert options[i + 1].id != options[j + 1].id;
        }
      }
      if options[0].id == optionId {
        RemoveByIdAbsent(options[1..], optionId);
      } else {
        RemoveByIdDropsAtMostOne(options[1..], optionId);
      }
    }
  }

  lemma {:induction false} RemoveByIdAbsent(options: seq<AnswerOption>, optionId: string)
    requires forall k :: 0 <= k < |options| ==> options[k].id != optionId
    ensures RemoveById(options, optionId) == options
  {
    if options != [] {
      RemoveByIdAbsent(options[1..], optionId);
    }
  }

  /** `removeOption`: nothing when the question is missing or has two options or fewer;
      otherwise the options with that id are dropped. */
  function RemoveOption(questions: seq<Question>, questionId: string, optionId: string): (r: seq<Question>)
    ensures |r| == |questions|
    ensures FindQuestion(questions, questionId).None? ==> r == questions
    ensures FindQuestion(questions, questionId).Some? && |FindQuestion(questions, questionId).value.options| <= 2 ==> r == questions
    ensures FindQuestion(questions, questionId).Some? && |FindQuestion(questions, questionId).value.options| > 2 ==>
              forall i :: 0 <= i < |questions| ==>
                if questions[i].id == questionId then
                  r[i] == questions[i].(options := RemoveById(FindQuestion(questions, questionId).value.options, optionId))
                else r[i] == questions[i]
  {
    var found := FindQuestion(questions, questionId);
    if found.None? || |found.value.options| <= 2 then questions
    else SetOptions(questions, questionId, RemoveById(found.value.options, optionId))
  }

  /** The option-count floor: a question that had at least two options with distinct ids keeps
      at least two after `removeOption`, whichever option is removed. */
  lemma RemoveOptionKeepsTwo(questions: seq<Question>, questionId: string, optionId: string, i: int)
    requires 0 <= i < |questions|
    requires |questions[i].options| >= 2
    requires forall k :: 0 <= k < |questions| ==> DistinctOptionIds(questions[k].options)
    ensures |RemoveOption(questions, questionId, optionId)[i].options| >= 2
  {
    var found := FindQuestion(questions, questionId);
    if found.Some? && |found.value.options| > 2 && questions[i].id == questionId {
      var k :| 0 <= k < |questions| && questions[k] == found.value;
      RemoveByIdDropsAtMostOne(found.value.options, optionId);
    }
  }

  /** Question ids as the id generator hands them out: no two questions share one. */
  predicate DistinctQuestionIds(questions: seq<Question>) {
    forall i, j :: 0 <= i < j < |questions| ==> questions[i].id != questions[j].id
  }

  /** With distinct question ids, `find` returns the one question carrying the id. */
  lemma FindUnique(questions: seq<Question>, k: int)
    requires DistinctQuestionIds(questions)
    requires 0 <= k < |questions|
    ensures FindQuestion(questions, questions[k].id) == Some(questions[k])
  {
    var found := FindQuestion(questions, questions[k].id);
    var m :| 0 <= m < |questions| && questions[m] == found.value && found.value.id == questions[k].id &&
             forall j :: 0 <= j < m ==> questions[j].id != questions[k].id;
    assert !(m < k) && !(k < m);
  }

  /** `addOption` on a question whose id is unique: only that question changes, gaining the
      new option at the end. */
  lemma AddOptionAt(questions: seq<Question>, questionId: string, newId: string, k: int)
    requires DistinctQuestionIds(questions)
    requires 0 <= k < |questions| && questions[k].id == questionId
    ensures var added := AddOption(questions, questionId, newId);
            var before := questions[k].options;
            && |added| == |questions|
            && DistinctQuestionIds(added)
            && added[k] == questions[k].(options := before + [AnswerOption(newId, NextOptionLabel(|before|), false)])
            && forall i :: 0 <= i < |questions| && i != k ==> added[i] == questions[i]
  {
    FindUnique(questions, k);
    var added := AddOption(questions, questionId, newId);
    var before := questions[k].options;
    assert added[k].options == before + [AnswerOption(newId, NextOptionLabel(|before|), false)] by {
      assert added[k].options[..|before|] == before;
    }
    forall i | 0 <= i < |questions| && i != k ensures added[i] == questions[i] {
      assert questions[i].id != questionId by {
        assert i < k || k < i;
      }
    }
  }

  /** `removeOption` on a question whose id is unique and that has more than two options: only
      that question changes, losing the options with the id. */
  lemma RemoveOptionAt(questions: seq<Question>, questionId: string, optionId: string, k: int)
    requires DistinctQuestionIds(questions)
    requires 0 <= k < |questions| && questions[k].id == questionId
    requires |questions[k].options| > 2
    ensures var r := RemoveOption(questions, questionId, optionId);
            && r[k] == questions[k].(options := RemoveById(questions[k].options, optionId))
            && forall i :: 0 <= i < |questions| && i != k ==> r[i] == questions[i]
  {
    FindUnique(questions, k);
    var r := RemoveOption(questions, questionId, optionId);
    forall i | 0 <= i < |questions| && i != k ensures r[i] == questions[i] {
      assert questions[i].id != questionId by {
        assert i < k || k < i;
      }
    }
  }

  /** Adding an option and removing it again by its fresh id restores the questions when the
      question had at least two options; with fewer, the remove button is not offered and the
      added option stays. */
  lemma AddThenRemoveOption(questions: seq<Question>, questionId: string, newId: string, k: int)
    requires DistinctQuestionIds(questions)
    requires 0 <= k < |questions| && questions[k].id == questionId
    requires forall j :: 0 <= j < |questions[k].options| ==> questions[k].options[j].id != newId
    ensures |questions[k].options| >= 2 ==>
              RemoveOption(AddOption(questions, questionId, newId), questionId, newId) == questions
    ensures |questions[k].options| < 2 ==>
              RemoveOption(AddOption(questions, questionId, newId), questionId, newId) == AddOption(questions, questionId, newId)
  {
    var added := AddOption(questions, questionId, newId);
    AddOptionAt(questions, questionId, newId, k);
    if |questions[k].options| >= 2 {
      RemoveFreshOption(questions, added, questionId, newId, k);
    } else {
      FindUnique(added, k);
    }
  }

  /** Removing by the id of an option appended to options that lack that id gives them back. */
  lemma {:induction false} RemoveAppendedOption(before: seq<AnswerOption>, extra: AnswerOption)
    requires forall j :: 0 <= j < |before| ==> before[j].id != extra.id
    ensures RemoveById(before + [extra], extra.id) == before
  {
    if before == [] {
      assert [] + [extra] == [extra] && [extra][1..] == [];
    } else {
      var rest := before[1..];
      var whole := before + [extra];
      assert whole[0] == before[0] && whole[1..] == rest + [extra];
      assert RemoveById(whole, extra.id) == [before[0]] + RemoveById(rest + [extra], extra.id);
      RemoveAppendedOption(rest, extra);
      assert before == [before[0]] + rest;
    }
  }

  lemma RemoveFreshOption(questions: seq<Question>, added: seq<Question>, questionId: string, newId: string, k: int)
    requires DistinctQuestionIds(added)
    requires |added| == |questions| && 0 <= k < |questions| && questions[k].id == questionId
    requires forall j :: 0 <= j < |questions[k].options| ==> questions[k].options[j].id != newId
    requires |questions[k].options| >= 2
    requires added[k] == questions[k].(options := questions[k].options + [AnswerOption(newId, NextOptionLabel(|questions[k].options|), false)])
    requires forall i :: 0 <= i < |questions| && i != k ==> added[i] == questions[i]
    ensures RemoveOption(added, questionId, newId) == questions
  {
    var before := questions[k].options;
    var extra := AnswerOption(newId, NextOptionLabel(|before|), false);
    var r := RemoveOption(added, questionId, newId);
    RemoveOptionAt(added, questionId, newId, k);
    RemoveAppendedOption(before, extra);
    assert r[k] == questions[k];
    forall i | 0 <= i < |questions| ensures r[i] == questions[i] {
    }
  }

  /** The option ids of a list, in order. */
  function OptionIdsOf(options: seq<AnswerOption>): seq<string> {
    seq(|options|, k requires 0 <= k < |options| => options[k].id)
  }

  /** An option edit that keeps ids (the text box) changes no question's option ids or count,
      so distinct option ids stay distinct. */
  lemma UpdateOptionKeepsIds(questions: seq<Question>, questionId: string, optionId: string,
                             patch: AnswerOption -> AnswerOption, i: int)
    requires DistinctQuestionIds(questions)
    requires forall o :: patch(o).id == o.id
    requires 0 <= i < |questions|
    ensures var r := UpdateOption(questions, questionId, optionId, patch);
            && r[i].id == questions[i].id
            && OptionIdsOf(r[i].options) == OptionIdsOf(questions[i].options)
            && (DistinctOptionIds(questions[i].options) ==> DistinctOptionIds(r[i].options))
  {
    var r := UpdateOption(questions, questionId, optionId, patch);
    var found := FindQuestion(questions, questionId);
    if found.Some? && questions[i].id == questionId {
      FindUnique(questions, i);
      assert OptionIdsOf(r[i].options) == OptionIdsOf(questions[i].options);
    }
    if DistinctOptionIds(questions[i].options) {
      forall a, b | 0 <= a < b < |r[i].options| ensures r[i].options[a].id != r[i].options[b].id {
        assert OptionIdsOf(r[i].options)[a] == OptionIdsOf(questions[i].options)[a];
        assert OptionIdsOf(r[i].options)[b] == OptionIdsOf(questions[i].options)[b];
      }
    }
  }

  /** The key a selected answer is recorded under: `${questionId}::${optionId}`. */
  function ConditionKey(questionId: string, optionId: string): string {
    questionId + "::" + optionId
  }

  datatype BuilderState = BuilderState(form: Form, currentPage: string, selectionMode: bool, selectedConditions: seq<string>)

  /** `toggleConditionSelection`: outside selection mode nothing changes; inside it the key's
      membership flips and no other key's membership changes. */
  function ToggleConditionSelection(st: BuilderState, questionId: string, optionId: string): (r: BuilderState)
    ensures !st.selectionMode ==> r == st
    ensures r == st.(selectedConditions := r.selectedConditions)
    ensures st.selectionMode ==>
              var key := ConditionKey(questionId, optionId);
              && (key in r.selectedConditions <==> key !in st.selectedConditions)
              && forall k :: k != key ==> (k in r.selectedConditions <==> k in st.selectedConditions)
  {
    if !st.selectionMode then st
    else st.(selectedConditions := Arrays.Toggle(st.selectedConditions, ConditionKey(questionId, optionId)))
  }

  /** Selecting an answer and then deselecting it restores the selection list. */
  lemma ToggleConditionTwice(st: BuilderState, questionId: string, optionId: string)
    requires st.selectionMode
    requires ConditionKey(questionId, optionId) !in st.selectedConditions
    ensures ToggleConditionSelection(ToggleConditionSelection(st, questionId, optionId), questionId, optionId) == st
  {
    Arrays.ToggleTwiceAbsent(st.selectedConditions, ConditionKey(questionId, optionId));
  }

  /** `handleAddCondition`: selection mode needs more than one page, and starts empty. */
  function AddCondition(st: BuilderState): (r: BuilderState)
    ensures |st.form.pages| <= 1 ==> r == st
    ensures |st.form.pages| > 1 ==> r == st.(selectionMode := true, selectedConditions := [])
  {
    if |st.form.pages| <= 1 then st else st.(selectionMode := true, selectedConditions := [])
  }

  /** `updatePageConditionalLogic(pageId, updates)`: the pages with that id get `updates`
      verbatim as their logic; every other page is unchanged. */
  function UpdatePageConditionalLogic(pages: seq<Page>, pageId: string, updates: PageLogic): (r: seq<Page>)
    ensures |r| == |pages|
    ensures forall i :: 0 <= i < |pages| ==>
              if pages[i].id == pageId then r[i] == pages[i].(conditionalLogic := updates) else r[i] == pages[i]
  {
    seq(|pages|, i requires 0 <= i < |pages| =>
      if pages[i].id == pageId then pages[i].(conditionalLogic := updates) else pages[i])
  }

  /** `page-{n}`. */
  function PageId(n: nat): string {
    "page-" + Strings.NatToString(n)
  }

  /** `Page {n padded to two digits}`. */
  function PageName(n: nat): string {
    "Page " + Strings.PadStart(Strings.NatToString(n), 2, '0')
  }

  /** `addPage`: a page numbered after the page count, inactive, with one grey section break
      and the empty rule, appended after the existing pages. */
  function AddPage(pages: seq<Page>, sectionId: string): (r: seq<Page>)
    ensures |r| == |pages| + 1
    ensures r[..|pages|] == pages
    ensures r[|pages|].id == PageId(|pages| + 1)
    ensures r[|pages|].name == PageName(|pages| + 1)
    ensures !r[|pages|].active
    ensures r[|pages|].layout == [SectionBreak(sectionId, Some(SectionGrey))]
    ensures r[|pages|].conditionalLogic == EmptyLogic
  {
    var n := |pages| + 1;
    var page := Page(PageId(n), PageName(n), [SectionBreak(sectionId, Some(SectionGrey))], false, EmptyLogic);
    assert (pages + [page])[..|pages|] == pages;
    pages + [page]
  }

  /** Page ids as the builder numbers them: the i-th page (from 0) is `page-{i+1}`. */
  predicate CanonicalPageIds(pages: seq<Page>) {
    forall i :: 0 <= i < |pages| ==> pages[i].id == PageId(i + 1)
  }

  lemma PageIdInjective(m: nat, n: nat)
    requires PageId(m) == PageId(n)
    ensures m == n
  {
    var prefix := "page-";
    assert Strings.NatToString(m) == PageId(m)[|prefix|..];
    assert Strings.NatToString(n) == PageId(n)[|prefix|..];
    Strings.NatToStringInjective(m, n);
  }

  /** Numbering keeps ids unique: in canonically numbered pages no two pages share an id, and
      `addPage` keeps the numbering canonical. */
  lemma {:induction false} AddPageKeepsIdsUnique(pages: seq<Page>, sectionId: string)
    requires CanonicalPageIds(pages)
    ensures CanonicalPageIds(AddPage(pages, sectionId))
    ensures forall i, j :: 0 <= i < j < |pages| + 1 ==> AddPage(pages, sectionId)[i].id != AddPage(pages, sectionId)[j].id
  {
    var r := AddPage(pages, sectionId);
    forall i | 0 <= i < |r| ensures r[i].id == PageId(i + 1) {
      if i < |pages| {
        assert r[i] == r[..|pages|][i];
      }
    }
    CanonicalIdsDistinct(r);
  }

  lemma CanonicalIdsDistinct(pages: seq<Page>)
    requires CanonicalPageIds(pages)
    ensures forall i, j :: 0 <= i < j < |pages| ==> pages[i].id != pages[j].id
  {
    forall i, j | 0 <= i < j < |pages| ensures pages[i].id != pages[j].id {
      if pages[i].id == pages[j].id {
        PageIdInjective(i + 1, j + 1);
      }
    }
  }

  /** `switchPage`: the current page becomes `pageId`, and a page is active exactly when its id is
      `pageId`; nothing else about the pages changes. */
  function SwitchPage(st: BuilderState, pageId: string): (r: BuilderState)
    ensures r.currentPage == pageId
    ensures |r.form.pages| == |st.form.pages|
    ensures forall i :: 0 <= i < |st.form.pages| ==>
              r.form.pages[i] == st.form.pages[i].(active := (st.form.pages[i].id == pageId))
    ensures r.form == st.form.(pages := r.form.pages)
    ensures r.selectionMode == st.selectionMode && r.selectedConditions == st.selectedConditions
  {
    var pages := st.form.pages;
    st.(currentPage := pageId,
        form := st.form.(pages := seq(|pages|, i requires 0 <= i < |pages| => pages[i].(active := pages[i].id == pageId))))
  }

  /** With distinct page ids, switching to an existing page leaves exactly that page active. */
  lemma SwitchPageOneActive(st: BuilderState, k: int)
    requires 0 <= k < |st.form.pages|
    requires forall i, j :: 0 <= i < j < |st.form.pages| ==> st.form.pages[i].id != st.form.pages[j].id
    ensures var r := SwitchPage(st, st.form.pages[k].id);
            forall i :: 0 <= i < |r.form.pages| ==> (r.form.pages[i].active <==> i == k)
  {
    var r := SwitchPage(st, st.form.pages[k].id);
    forall i | 0 <= i < |r.form.pages| ensures r.form.pages[i].active <==> i == k {
      if i != k {
        assert i < k || k < i;
      }
    }
  }

  /** `fetchForm`'s normalisation of a loaded page: an empty layout gets one grey section break and
      a missing logic gets the empty rule. */
  function NormalizeLoadedPage(page: Page, sectionId: string): (r: Page)
    ensures r.id == page.id && r.name == page.name && r.active == page.active
    ensures page.layout != [] ==> r.layout == page.layout
    ensures page.layout == [] ==> r.layout == [SectionBreak(sectionId, Some(SectionGrey))]
    ensures !r.conditionalLogic.Absent?
    ensures !page.conditionalLogic.Absent? ==> r.conditionalLogic == page.conditionalLogic
  {
    page.(layout := if |page.layout| > 0 then page.layout else [SectionBreak(sectionId, Some(SectionGrey))],
          conditionalLogic := if page.conditionalLogic.Absent? then EmptyLogic else page.conditionalLogic)
  }

  /** `page.conditionalLogic && Array.isArray(page.conditionalLogic.conditions) && ... .length > 0`:
      only a single rule object has a `conditions` field. */
  predicate HasConfiguredLogic(page: Page) {
    page.conditionalLogic.OneRule? &&
    page.conditionalLogic.rule.conditions.Some? &&
    |page.conditionalLogic.rule.conditions.value| > 0
  }

  datatype PublishRoute = NoQuestions | SaveFailed | ToLogicFlowchart | ToPreview

  /** `handlePublish`: refused without questions; after a successful save, the logic flowchart
      when some page has configured conditions or there is more than one page, else the preview. */
  function PublishDecision(form: Form, saveSucceeded: bool): (r: PublishRoute)
    ensures r == NoQuestions <==> |form.questions| == 0
    ensures r == SaveFailed <==> |form.questions| > 0 && !saveSucceeded
    ensures |form.questions| > 0 && saveSucceeded ==>
              (r == ToLogicFlowchart <==>
                 (exists i :: 0 <= i < |form.pages| && HasConfiguredLogic(form.pages[i])) || |form.pages| > 1)
    ensures |form.questions| > 0 && saveSucceeded ==> r != NoQuestions && r != SaveFailed
  {
    if |form.questions| == 0 then NoQuestions
    else if !saveSucceeded then SaveFailed
    else if (exists i :: 0 <= i < |form.pages| && HasConfiguredLogic(form.pages[i])) || |form.pages| > 1 then ToLogicFlowchart
    else ToPreview
  }

  /** `getQuestionTypeLabel`. */
  function QuestionTypeLabel(t: QuestionType): (r: string)
    ensures r == "Short Answer" <==> t.Text? || t.OtherType?
  {
    match t
    case Text => "Short Answer"
    case Textarea => "Long Answer"
    case MultipleChoice => "Multiple Choice"
    case Checkbox => "Checkbox"
    case Dropdown => "Dropdown"
    case Date => "Date"
    case LinearScale => "Linear Scale"
    case Rating => "Rating"
    case FileUpload => "File Upload"
    case Image => "Image"
    case Video => "Video"
    case OtherType(_) => "Short Answer"
  }

  /** `getQuestionTypeLabel` on the stored `type` string: `typeMap[type] || 'Short Answer'`. */
  function TypeNameLabel(name: string): (r: string)
    ensures r == "Short Answer" <==> name == "text" || name !in KnownTypeNames
    ensures name == "rating" ==> r == "Rating"
  {
    QuestionTypeLabel(ParseType(name))
  }

  /** The eleven known types have eleven different labels; an unknown type reads as a short answer. */
  lemma LabelsDistinguishKnownTypes(s: QuestionType, t: QuestionType)
    requires !s.OtherType? && !t.OtherType?
    requires QuestionTypeLabel(s) == QuestionTypeLabel(t)
    ensures s == t
  {
  }

  /** A file-upload question is created with three options but retyping to file upload clears them. */
  lemma FileUploadOptionsDependOnPath(q: Question, id: string, optionIds: OptionIds, order: int, pageId: string)
    ensures |NewQuestion(FileUpload, id, optionIds, order, pageId).options| == 3
    ensures Retyped(q, FileUpload, optionIds).options == []
  {
  }
}

=== FILE: credentials.dfy ===
/** Validators shared by the password-reset pages and the signup page. */
module Credentials {
  import Strings

  /** The number of digits in a one-time password. */
  const OtpLength := 6

  /** An OTP field value the sanitiser can produce: digits only, at most six of them. */
  predicate WellFormedOtp(s: string) {
    Strings.AllDigits(s) && |s| <= OtpLength
  }

  /** The OTP input handler: non-digits are stripped from the typed value, and the field takes
      the result only when it has at most six digits; a longer value leaves the field as it was. */
  function OtpInput(current: string, typed: string): (r: string)
    ensures Strings.AllDigits(r) || r == current
    ensures r == current || |r| <= OtpLength
    ensures WellFormedOtp(current) ==> WellFormedOtp(r)
    ensures |Strings.KeepDigits(typed)| > OtpLength ==> r == current
    ensures |Strings.KeepDigits(typed)| <= OtpLength ==> r == Strings.KeepDigits(typed)
  {
    var digits := Strings.KeepDigits(typed);
    if |digits| <= OtpLength then digits else current
  }

  /** Typing a well-formed OTP sets the field to exactly that value. */
  lemma OtpInputAcceptsDigits(current: string, typed: string)
    requires WellFormedOtp(typed)
    ensures OtpInput(current, typed) == typed
  {
    Strings.KeepDigitsOfDigits(typed);
  }

  /** Seven digits leave the field as it was; separators are stripped from a short OTP. */
  lemma OtpInputExamples()
    ensures OtpInput("12", "1234567") == "12"
    ensures OtpInput("", "12-34") == "1234"
  {
    assert Strings.KeepDigits("1234567") == "1234567" by {
      Strings.KeepDigitsOfDigits("1234567");
    }
    assert Strings.KeepDigits("12-34") == "1234" by {
      assert "12-34"[1..] == "2-34" && "2-34"[1..] == "-34" && "-34"[1..] == "34";
      Strings.KeepDigitsOfDigits("34");
    }
  }

  /** Whatever is typed, the field only ever holds a digit string of at most six characters. */
  lemma {:induction false} OtpStaysWellFormed(current: string, typed: seq<string>)
    requires WellFormedOtp(current)
    ensures WellFormedOtp(OtpAfter(current, typed))
    decreases |typed|
  {
    if typed != [] {
      OtpStaysWellFormed(OtpInput(current, typed[0]), typed[1..]);
    }
  }

  /** The field after a sequence of input events. */
  function OtpAfter(current: string, typed: seq<string>): string
    decreases |typed|
  {
    if typed == [] then current else OtpAfter(OtpInput(current, typed[0]), typed[1..])
  }

  /** The verify step goes ahead only for an OTP of exactly six characters (an empty one fails too). */
  predicate OtpComplete(otp: string) {
    otp != "" && |otp| == OtpLength
  }

  datatype PasswordVerdict = EmptyField | Mismatch | TooShort(minLength: nat) | Accepted

  /** The new-password check: a mismatch is reported before the length is looked at. */
  function CheckPassword(password: string, confirm: string, minLength: nat): (v: PasswordVerdict)
    ensures v == Mismatch <==> password != confirm
    ensures v == TooShort(minLength) <==> password == confirm && |password| < minLength
    ensures v == Accepted <==> password == confirm && |password| >= minLength
    ensures v != EmptyField
  {
    if password != confirm then Mismatch
    else if |password| < minLength then TooShort(minLength)
    else Accepted
  }
}

=== FILE: forgot_password.dfy ===
/** The forgot-password page: email, then a six-digit OTP, then a new password of at least
    eight characters. */
module ForgotPassword {
  import opened Credentials
  import Strings

  /** The page's three steps (the source numbers them 1, 2 and 3). */
  datatype Step = EnterEmail | EnterOtp | EnterPassword

  datatype Field = Email | Otp | NewPassword | ConfirmPassword

  datatype ResetForm = ResetForm(email: string, otp: string, newPassword: string, confirmPassword: string)

  datatype State = State(step: Step, form: ResetForm)

  /** What a handler asks of the outside world. */
  datatype Effect = NoEffect | ShowError | SendOtp(email: string) | RequestReset(email: string, otp: string, password: string)

  const MinPasswordLength := 8

  const Initial := State(EnterEmail, ResetForm("", "", "", ""))

  function FieldValue(f: ResetForm, field: Field): string {
    match field
    case Email => f.email
    case Otp => f.otp
    case NewPassword => f.newPassword
    case ConfirmPassword => f.confirmPassword
  }

  /** `handleChange`: the OTP field goes through the digit sanitiser; any other field takes the
      typed value. No other field changes. */
  function Change(s: State, field: Field, value: string): (r: State)
    ensures r.step == s.step
    ensures field == Otp ==> r.form.otp == OtpInput(s.form.otp, value)
    ensures field != Otp ==> FieldValue(r.form, field) == value
    ensures forall other: Field :: other != field ==> FieldValue(r.form, other) == FieldValue(s.form, other)
  {
    match field
    case Email => s.(form := s.form.(email := value))
    case Otp => s.(form := s.form.(otp := OtpInput(s.form.otp, value)))
    case NewPassword => s.(form := s.form.(newPassword := value))
    case ConfirmPassword => s.(form := s.form.(confirmPassword := value))
  }

  /** What the page keeps true: the OTP is a digit string of at most six characters, and the
      password step is only ever open with a complete OTP. */
  predicate Invariant(s: State) {
    && WellFormedOtp(s.form.otp)
    && (s.step == EnterPassword ==> OtpComplete(s.form.otp))
  }

  /** `handleEmailSubmit`: the OTP request is sent; on success the OTP step opens, otherwise
      the step stays. */
  function SubmitEmail(s: State, succeeded: bool): (r: (State, Effect))
    ensures r.1 == SendOtp(s.form.email)
    ensures r.0.form == s.form
    ensures r.0.step == (if succeeded then EnterOtp else s.step)
  {
    (if succeeded then s.(step := EnterOtp) else s, SendOtp(s.form.email))
  }

  /** `handleOTPVerify`: the password step opens exactly when the OTP has six characters. */
  function VerifyOtp(s: State): (r: (State, Effect))
    ensures r.0.form == s.form
    ensures r.0.step == EnterPassword <==> OtpComplete(s.form.otp) || s.step == EnterPassword
    ensures !OtpComplete(s.form.otp) ==> r == (s, ShowError)
  {
    if !OtpComplete(s.form.otp) then (s, ShowError) else (s.(step := EnterPassword), NoEffect)
  }

  /** `handlePasswordReset`: mismatch first, then length below eight; only then is the reset
      requested with the email, the OTP and the new password. */
  function ResetPassword(s: State): (r: (State, Effect))
    ensures r.0 == s
    ensures r.1.RequestReset? <==> CheckPassword(s.form.newPassword, s.form.confirmPassword, MinPasswordLength) == Accepted
    ensures r.1.RequestReset? ==> r.1 == RequestReset(s.form.email, s.form.otp, s.form.newPassword)
    ensures !r.1.RequestReset? ==> r.1 == ShowError
  {
    if CheckPassword(s.form.newPassword, s.form.confirmPassword, MinPasswordLength) == Accepted
    then (s, RequestReset(s.form.email, s.form.otp, s.form.newPassword))
    else (s, ShowError)
  }

  /** `handleCloseModal`: back to the email step, keeping only the email. */
  function CloseModal(s: State): (r: State)
    ensures r.step == EnterEmail
    ensures r.form.email == s.form.email
    ensures FieldValue(r.form, Otp) == "" && FieldValue(r.form, NewPassword) == "" && FieldValue(r.form, ConfirmPassword) == ""
  {
    State(EnterEmail, ResetForm(s.form.email, "", "", ""))
  }

  /** The page's user events, each with the asynchronous outcome it depends on. */
  datatype Event = Typed(field: Field, value: string) | EmailSubmitted(succeeded: bool) | OtpVerified | ResetSubmitted | Closed

  /** Whether the page renders the control that raises `e`: the email form at every step, the
      OTP input and its form only on step 2, the password inputs and their form only on step 3.
      No control calls `handleCloseModal`. */
  predicate Rendered(s: State, e: Event) {
    match e
    case Typed(field, _) =>
      if field == Email then true
      else if field == Otp then s.step == EnterOtp
      else s.step == EnterPassword
    case EmailSubmitted(_) => true
    case OtpVerified => s.step == EnterOtp
    case ResetSubmitted => s.step == EnterPassword
    case Closed => false
  }

  /** One user event; an event whose control is not on screen changes nothing. */
  function Handle(s: State, e: Event): State {
    if !Rendered(s, e) then s
    else match e
      case Typed(field, value) => Change(s, field, value)
      case EmailSubmitted(ok) => SubmitEmail(s, ok).0
      case OtpVerified => VerifyOtp(s).0
      case ResetSubmitted => ResetPassword(s).0
      case Closed => CloseModal(s)
  }

  function HandleAll(s: State, events: seq<Event>): State
    decreases |events|
  {
    if events == [] then s else HandleAll(Handle(s, events[0]), events[1..])
  }

  /** Every handler keeps the invariant. */
  lemma HandleKeepsInvariant(s: State, e: Event)
    requires Invariant(s)
    ensures Invariant(Handle(s, e))
  {
  }

  /** From any state that meets the invariant (the initial one included), any run of events
      keeps it. */
  lemma {:induction false} RunKeepsInvariant(s: State, events: seq<Event>)
    requires Invariant(s)
    ensures Invariant(HandleAll(s, events))
    decreases |events|
  {
    if events != [] {
      HandleKeepsInvariant(s, events[0]);
      RunKeepsInvariant(Handle(s, events[0]), events[1..]);
    }
  }

  /** Whatever the user does, a reset request the page sends carries six OTP digits. */
  lemma ResetCarriesCompleteOtp(events: seq<Event>)
    ensures var s := HandleAll(Initial, events);
            Rendered(s, ResetSubmitted) && ResetPassword(s).1.RequestReset? ==>
              Strings.AllDigits(ResetPassword(s).1.otp) && |ResetPassword(s).1.otp| == OtpLength
  {
    RunKeepsInvariant(Initial, events);
  }
}

=== FILE: form_model.dfy ===
/** The form document shared by the builder, the viewer and the preview. */
module FormModel {
  import opened Wrappers

  /** A primitive JavaScript value, compared by strict equality (`===`). Numbers are integers here. */
  datatype Scalar = Undefined | Null | Bool(b: bool) | Num(n: int) | Str(s: string)

  /** What an uploaded file leaves in the answer. */
  datatype FileInfo = FileInfo(name: string, size: int, mimeType: string)

  /** An array element: a primitive, or the record an uploaded file leaves. */
  datatype Element = Prim(p: Scalar) | FileRec(file: FileInfo)

  /** A recorded answer: a primitive (text, choice, number) or an array (checkbox ids, files). */
  datatype Answer = Single(v: Scalar) | Many(items: seq<Element>)

  /** `{fieldId, value}`: the respondent's answer to `fieldId` should be (or contain) `value`. */
  datatype Condition = Condition(fieldId: string, value: Scalar)

  /** `{conditions, passRedirect, failRedirect}`; `conditions` may be missing. */
  datatype Rule = Rule(conditions: Option<seq<Condition>>, passRedirect: Option<string>, failRedirect: Option<string>)

  /** `{enabled, trueRedirect, falseRedirect, logic}`, the object the logic modal builds. */
  datatype ModalLogic = ModalLogic(enabled: bool, trueRedirect: string, falseRedirect: string, logic: string)

  /** The shapes a page's `conditionalLogic` field takes across the program:
      - `Absent`: `null` or `undefined`;
      - `OneRule`: one rule object, what the builder creates for every page;
      - `RuleList`: an array of rules, the only shape the viewer acts on;
      - `Wrapped`: `{conditionalLogic: ...}`, what the modal emits and the builder stores verbatim;
      - `Bare`: a modal logic object stored directly. */
  datatype PageLogic =
    | Absent
    | OneRule(rule: Rule)
    | RuleList(rules: seq<Rule>)
    | Wrapped(inner: Option<ModalLogic>)
    | Bare(modal: ModalLogic)

  /** An entry of a page layout: a question id string, a section break object, or any other object. */
  datatype LayoutItem = QuestionRef(qid: string) | SectionBreak(id: string, color: Option<string>) | OtherItem

  datatype Page = Page(id: string, name: string, layout: seq<LayoutItem>, active: bool, conditionalLogic: PageLogic)

  /** The `type` strings the builder offers, in the order of its type menu. */
  const KnownTypeNames := ["text", "textarea", "multiple-choice", "checkbox", "dropdown", "date",
                           "linear-scale", "rating", "file-upload", "image", "video"]

  /** A `type` string the builder does not know. */
  type CustomTypeName = s: string | s !in KnownTypeNames witness "custom"

  /** A question's `type`: one of the known strings, or any other string. */
  datatype QuestionType =
    | Text | Textarea | MultipleChoice | Checkbox | Dropdown | Date
    | LinearScale | Rating | FileUpload | Image | Video
    | OtherType(name: CustomTypeName)

  /** The `type` string a question carries. */
  function TypeName(t: QuestionType): string {
    match t
    case Text => "text"
    case Textarea => "textarea"
    case MultipleChoice => "multiple-choice"
    case Checkbox => "checkbox"
    case Dropdown => "dropdown"
    case Date => "date"
    case LinearScale => "linear-scale"
    case Rating => "rating"
    case FileUpload => "file-upload"
    case Image => "image"
    case Video => "video"
    case OtherType(name) => name
  }

  /** Reading a `type` string: each known string is its type, any other string is `OtherType`. */
  function ParseType(name: string): (t: QuestionType)
    ensures t.OtherType? <==> name !in KnownTypeNames
  {
    if name == "text" then Text
    else if name == "textarea" then Textarea
    else if name == "multiple-choice" then MultipleChoice
    else if name == "checkbox" then Checkbox
    else if name == "dropdown" then Dropdown
    else if name == "date" then Date
    else if name == "linear-scale" then LinearScale
    else if name == "rating" then Rating
    else if name == "file-upload" then FileUpload
    else if name == "image" then Image
    else if name == "video" then Video
    else OtherType(name)
  }

  /** Reading a `type` string and writing it back gives the same string, and every type is
      read back from the string it writes. */
  lemma TypeNameRoundTrip(name: string, t: QuestionType)
    ensures TypeName(ParseType(name)) == name
    ensures ParseType(TypeName(t)) == t
  {
    if name in KnownTypeNames {
      assert name == "text" || name == "textarea" || name == "multiple-choice" || name == "checkbox"
          || name == "dropdown" || name == "date" || name == "linear-scale" || name == "rating"
          || name == "file-upload" || name == "image" || name == "video";
    }
    match t
    case OtherType(n) => assert n !in KnownTypeNames;
    case _ =>
  }

  datatype AnswerOption = AnswerOption(id: string, text: string, isCorrect: bool)

  datatype DateSettings = DateSettings(format: string)
  datatype LinearScaleSettings = LinearScaleSettings(min: int, max: int, minLabel: string, maxLabel: string, defaultValue: int)
  datatype RatingSettings = RatingSettings(maxStars: int, starCount: int)
  datatype FileSettings = FileSettings(maxFiles: int, maxFileSize: string, allowedTypes: seq<string>)

  datatype Question = Question(
    id: string,
    qtype: QuestionType,
    title: string,
    content: string,
    options: seq<AnswerOption>,
    required: bool,
    order: int,
    pageId: string,
    dateSettings: Option<DateSettings>,
    linearScaleSettings: Option<LinearScaleSettings>,
    ratingSettings: Option<RatingSettings>,
    fileSettings: Option<FileSettings>)

  datatype Design = Design(backgroundColor: string, sectionColor: string, theme: string)

  datatype Form = Form(
    title: string,
    description: string,
    questions: seq<Question>,
    design: Option<Design>,
    pages: seq<Page>,
    defaultRedirect: string,
    status: string)

  /** `pages.findIndex(p => p.id === id)`: the first page with that id, or -1. */
  function FindPageIndex(pages: seq<Page>, id: string): (r: int)
    ensures -1 <= r < |pages|
    ensures r == -1 <==> forall i :: 0 <= i < |pages| ==> pages[i].id != id
    ensures r >= 0 ==> pages[r].id == id && forall j :: 0 <= j < r ==> pages[j].id != id
  {
    if pages == [] then -1
    else if pages[0].id == id then 0
    else
      var k := FindPageIndex(pages[1..], id);
      if k == -1 then -1 else k + 1
  }

  /** `questions.find(q => q.id === id)`: the first question with that id. */
  function FindQuestion(questions: seq<Question>, id: string): (r: Option<Question>)
    ensures r.None? <==> forall i :: 0 <= i < |questions| ==> questions[i].id != id
    ensures r.Some? ==> exists k :: 0 <= k < |questions| && questions[k] == r.value && r.value.id == id &&
                                    forall j :: 0 <= j < k ==> questions[j].id != id
  {
    if questions == [] then None
    else if questions[0].id == id then Some(questions[0])
    else
      var r := FindQuestion(questions[1..], id);
      if r.Some? then
        var k :| 0 <= k < |questions[1..]| && questions[1..][k] == r.value && r.value.id == id &&
                 forall j :: 0 <= j < k ==> questions[1..][j].id != id;
        assert questions[k + 1] == r.value;
        r
      else r
  }
}

=== FILE: integration.dfy ===
/** How the builder, the logic modal and the viewer fit together through the page's
    `conditionalLogic` field. The builder and the modal only ever write a single rule object or
    the modal's wrapped object; the viewer acts only on an array of rules. */
module Integration {
  import opened Wrappers
  import opened FormModel
  import Navigation
  import Builder
  import LogicModal
  import Preview

  /** A logic shape the builder or the modal can leave on a page, or that a page loaded from the
      server may lack: absent, a single rule object, or the modal's wrapper. */
  predicate BuilderShape(logic: PageLogic) {
    logic.Absent? || logic.OneRule? || logic.Wrapped?
  }

  /** The builder's page edits that touch a page's logic or the page list. */
  datatype PageEdit =
    | NewPage(sectionId: string)
    | SaveModal(pageId: string, sel: LogicModal.Selection)
    | ClearModal(pageId: string, sel: LogicModal.Selection)
    | Loaded(index: nat, sectionId: string)

  function ApplyEdit(pages: seq<Page>, e: PageEdit): seq<Page> {
    match e
    case NewPage(sectionId) => Builder.AddPage(pages, sectionId)
    case SaveModal(pageId, sel) => Builder.UpdatePageConditionalLogic(pages, pageId, LogicModal.SaveLogic(sel))
    case ClearModal(pageId, sel) => Builder.UpdatePageConditionalLogic(pages, pageId, LogicModal.ClearLogic(sel).1)
    case Loaded(i, sectionId) =>
      if i < |pages| then pages[i := Builder.NormalizeLoadedPage(pages[i], sectionId)] else pages
  }

  function ApplyEdits(pages: seq<Page>, edits: seq<PageEdit>): seq<Page>
    decreases |edits|
  {
    if edits == [] then pages else ApplyEdits(ApplyEdit(pages, edits[0]), edits[1..])
  }

  predicate AllBuilderShapes(pages: seq<Page>) {
    forall i :: 0 <= i < |pages| ==> BuilderShape(pages[i].conditionalLogic)
  }

  /** Every builder edit leaves every page with a builder shape. */
  lemma EditKeepsBuilderShapes(pages: seq<Page>, e: PageEdit)
    requires AllBuilderShapes(pages)
    ensures AllBuilderShapes(ApplyEdit(pages, e))
  {
    var r := ApplyEdit(pages, e);
    match e
    case NewPage(sectionId) =>
      forall i | 0 <= i < |r| ensures BuilderShape(r[i].conditionalLogic) {
        if i < |pages| {
          assert r[i] == r[..|pages|][i];
        }
      }
    case SaveModal(pageId, sel) =>
    case ClearModal(pageId, sel) =>
    case Loaded(i, sectionId) =>
  }

  lemma {:induction false} EditsKeepBuilderShapes(pages: seq<Page>, edits: seq<PageEdit>)
    requires AllBuilderShapes(pages)
    ensures AllBuilderShapes(ApplyEdits(pages, edits))
    decreases |edits|
  {
    if edits != [] {
      EditKeepsBuilderShapes(pages, edits[0]);
      EditsKeepBuilderShapes(ApplyEdit(pages, edits[0]), edits[1..]);
    }
  }

  /** The viewer walks any form the builder produced strictly in order: whatever the answers
      and whatever was saved in the logic modal, Next advances by one page (or stays on the
      last), because no page ever holds a rule array. */
  lemma BuiltFormsAreLinear(start: seq<Page>, edits: seq<PageEdit>, index: int, responses: Navigation.Responses)
    requires AllBuilderShapes(start)
    requires 0 <= index < |ApplyEdits(start, edits)|
    ensures var pages := ApplyEdits(start, edits);
            Navigation.NextPage(pages, index, responses) == (if index < |pages| - 1 then index + 1 else index)
  {
    EditsKeepBuilderShapes(start, edits);
    var pages := ApplyEdits(start, edits);
    assert BuilderShape(pages[index].conditionalLogic);
  }

  /** On builder-made pages the viewer's Next is exactly the preview's linear Next. */
  lemma ViewerMatchesPreviewOnBuiltForms(start: seq<Page>, edits: seq<PageEdit>, index: int, responses: Navigation.Responses)
    requires AllBuilderShapes(start)
    requires 0 <= index < |ApplyEdits(start, edits)|
    ensures var pages := ApplyEdits(start, edits);
            Navigation.NextPage(pages, index, responses) == Preview.PreviewNext(|pages|, index)
  {
    BuiltFormsAreLinear(start, edits, index, responses);
  }

  /** The one-page form the builder starts with has a builder shape. */
  lemma InitialPageHasBuilderShape(sectionId: string)
    ensures AllBuilderShapes([Page("page-1", "Page 01", [SectionBreak(sectionId, Some(Builder.SectionGrey))], true, Builder.EmptyLogic)])
  {
  }

  /** A page whose logic was set through the modal does not count as configured logic when
      publishing: a one-page form with such a page goes straight to the preview. */
  lemma ModalLogicInvisibleToPublish(form: Form, sel: LogicModal.Selection)
    requires |form.questions| > 0 && |form.pages| == 1
    requires form.pages[0].conditionalLogic == LogicModal.SaveLogic(sel)
    ensures Builder.PublishDecision(form, true) == Builder.PublishRoute.ToPreview
  {
    assert !Builder.HasConfiguredLogic(form.pages[0]);
  }

  /** Reopening the modal on a page whose logic the modal saved shows no selection. */
  lemma ModalForgetsSavedSelection(pages: seq<Page>, pageId: string, sel: LogicModal.Selection, k: int)
    requires 0 <= k < |pages| && pages[k].id == pageId
    ensures var saved := Builder.UpdatePageConditionalLogic(pages, pageId, LogicModal.SaveLogic(sel));
            LogicModal.InitialSelection(saved[k].conditionalLogic) == LogicModal.Selection("", "")
  {
  }

  /** A three-page form whose first page holds one rule array: `q1` equal to `yes` jumps to the
      third page, anything else to the second. */
  function ScenarioPages(): seq<Page> {
    var rule := Rule(Some([Condition("q1", Str("yes"))]), Some("P3"), Some("P2"));
    [Page("P1", "Page 01", [], true, RuleList([rule])),
     Page("P2", "Page 02", [], false, Builder.EmptyLogic),
     Page("P3", "Page 03", [], false, Builder.EmptyLogic)]
  }

  /** On that form: answering `yes` leads to P3, `no` to P2, and no answer at all to P2 as well. */
  lemma ScenarioNavigation()
    ensures Navigation.NextPage(ScenarioPages(), 0, map["q1" := Single(Str("yes"))]) == 2
    ensures Navigation.NextPage(ScenarioPages(), 0, map["q1" := Single(Str("no"))]) == 1
    ensures Navigation.NextPage(ScenarioPages(), 0, map[]) == 1
  {
    var pages := ScenarioPages();
    var yes: Navigation.Responses := map["q1" := Single(Str("yes"))];
    var no: Navigation.Responses := map["q1" := Single(Str("no"))];
    var none: Navigation.Responses := map[];
    assert Navigation.ConditionHolds(yes, Condition("q1", Str("yes")));
    assert !Navigation.ConditionHolds(no, Condition("q1", Str("yes")));
    var rule := pages[0].conditionalLogic.rules[0];
    assert Truthy(rule.failRedirect);
    assert rule.conditions.value[0] == Condition("q1", Str("yes"));
    assert !Navigation.AllConditionsMet(no, rule.conditions.value);
    assert Navigation.ScanRules([rule], no) == Navigation.Fail(Some("P2"));
    assert !Navigation.ConditionHolds(none, Condition("q1", Str("yes")));
    assert FindPageIndex(pages, "P3") == 2 by {
      assert pages[0].id != "P3" && pages[1].id != "P3" && pages[2].id == "P3";
    }
    assert FindPageIndex(pages, "P2") == 1 by {
      assert pages[0].id != "P2" && pages[1].id == "P2";
    }
  }
}

=== FILE: logic_modal.dfy ===
/** The conditional-logic modal: choosing the pages to jump to when a page's answers are all
    correct (true) or not (false). */
module LogicModal {
  import opened Wrappers
  import opened FormModel
  import Arrays

  /** The modal's two page selections; `''` means "no page selected". */
  datatype Selection = Selection(trueRedirect: string, falseRedirect: string)

  /** `pages.filter(page => page.id !== currentPageId)`: the jump targets offered. */
  function AvailablePages(pages: seq<Page>, currentPageId: string): (r: seq<Page>)
    ensures forall i :: 0 <= i < |r| ==> r[i].id != currentPageId
    ensures forall p :: p in pages && p.id != currentPageId ==> p in r
    ensures Arrays.IsSubsequence(r, pages)
  {
    if pages == [] then []
    else if pages[0].id == currentPageId then AvailablePages(pages[1..], currentPageId)
    else [pages[0]] + AvailablePages(pages[1..], currentPageId)
  }

  /** With distinct page ids and the current page among them, every other page is offered. */
  lemma {:induction false} AvailablePagesCount(pages: seq<Page>, currentPageId: string)
    requires forall i, j :: 0 <= i < j < |pages| ==> pages[i].id != pages[j].id
    requires exists i :: 0 <= i < |pages| && pages[i].id == currentPageId
    ensures |AvailablePages(pages, currentPageId)| == |pages| - 1
  {
    var rest := pages[1..];
    assert forall i, j :: 0 <= i < j < |rest| ==> rest[i].id != rest[j].id by {
      forall i, j | 0 <= i < j < |rest| ensures rest[i].id != rest[j].id {
        assert rest[i] == pages[i + 1] && rest[j] == pages[j + 1];
      }
    }
    if pages[0].id == currentPageId {
      AvailablePagesNone(rest, currentPageId);
    } else {
      var i :| 0 <= i < |pages| && pages[i].id == currentPageId;
      assert rest[i - 1].id == currentPageId;
      AvailablePagesCount(rest, currentPageId);
    }
  }

  lemma {:induction false} AvailablePagesNone(pages: seq<Page>, currentPageId: string)
    requires forall i :: 0 <= i < |pages| ==> pages[i].id != currentPageId
    ensures AvailablePages(pages, currentPageId) == pages
  {
    if pages != [] {
      AvailablePagesNone(pages[1..], currentPageId);
    }
  }

  /** The selectors are shown only when some other page exists to jump to. */
  predicate OffersSelectors(pages: seq<Page>, currentPageId: string) {
    |AvailablePages(pages, currentPageId)| > 0
  }

  /** A form whose only page is the current one offers no jump target. */
  lemma SinglePageOffersNothing(pages: seq<Page>, currentPageId: string)
    requires |pages| == 1 && pages[0].id == currentPageId
    ensures !OffersSelectors(pages, currentPageId)
  {
    assert pages[1..] == [];
  }

  /** The initial selections: `conditionalLogic?.trueRedirect || ''` and the same for false.
      Only a bare modal-logic object has these fields; a rule object, a rule array and the
      wrapped object the modal itself emits all read as no selection. */
  function InitialSelection(logic: PageLogic): (s: Selection)
    ensures logic.OneRule? || logic.RuleList? || logic.Wrapped? || logic.Absent? ==> s == Selection("", "")
    ensures logic.Bare? ==> s == Selection(logic.modal.trueRedirect, logic.modal.falseRedirect)
  {
    match logic
    case Bare(m) => Selection(m.trueRedirect, m.falseRedirect)
    case _ => Selection("", "")
  }

  /** `handleSave`: no selection at all removes the logic; otherwise an enabled AND rule with
      both selections. The result is always wrapped in `{conditionalLogic: ...}`. */
  function SaveLogic(sel: Selection): (r: PageLogic)
    ensures r.Wrapped?
    ensures r.inner.None? <==> sel.trueRedirect == "" && sel.falseRedirect == ""
    ensures r.inner.Some? ==> r.inner.value == ModalLogic(true, sel.trueRedirect, sel.falseRedirect, "AND")
  {
    if sel.trueRedirect == "" && sel.falseRedirect == "" then Wrapped(None)
    else Wrapped(Some(ModalLogic(true, sel.trueRedirect, sel.falseRedirect, "AND")))
  }

  /** `handleClear`: both selections reset and the logic removed. */
  function ClearLogic(sel: Selection): (r: (Selection, PageLogic))
    ensures r.0 == Selection("", "")
    ensures r.1 == SaveLogic(Selection("", ""))
  {
    (Selection("", ""), Wrapped(None))
  }

  /** Saving and reopening does not round-trip: whatever was chosen, the reopened modal starts
      with no selection, because the saved object is read one level too shallow. */
  lemma SaveThenReopenForgets(sel: Selection)
    ensures InitialSelection(SaveLogic(sel)) == Selection("", "")
  {
  }
}

=== FILE: navigation.dfy ===
/** The respondent's page navigation in the form viewer: rule evaluation, Next, Previous,
    answer recording and the submitted answers payload. */
module Navigation {
  import opened Wrappers
  import opened FormModel

  /** The viewer's `responses` object: question id to recorded answer. */
  type Responses = map<string, Answer>

  /** `responses[fieldId]`, which is `undefined` when nothing was recorded. */
  function AnswerFor(responses: Responses, fieldId: string): (a: Answer)
    ensures fieldId !in responses ==> a == Single(Undefined)
  {
    if fieldId in responses then responses[fieldId] else Single(Undefined)
  }

  /** One condition: list membership when the recorded answer is an array, strict equality
      otherwise. A file record in an array never equals a primitive. */
  predicate ConditionHolds(responses: Responses, c: Condition)
    ensures c.fieldId !in responses ==> (ConditionHolds(responses, c) <==> c.value == Undefined)
  {
    match AnswerFor(responses, c.fieldId)
    case Many(items) => Prim(c.value) in items
    case Single(v) => v == c.value
  }

  /** `conditions.every(...)`. */
  predicate AllConditionsMet(responses: Responses, conditions: seq<Condition>) {
    forall i :: 0 <= i < |conditions| ==> ConditionHolds(responses, conditions[i])
  }

  /** The result of evaluating a page's logic: `none`, `pass` or `fail` with a redirect page id. */
  datatype LogicResult = NoDecision | Pass(redirectPageId: Option<string>) | Fail(redirectPageId: Option<string>)

  /** A rule takes part only when its `conditions` is present and non-empty. */
  predicate HasConditions(rule: Rule) {
    rule.conditions.Some? && |rule.conditions.value| > 0
  }

  /** A rule decides the outcome when it takes part and either all its conditions hold or it
      has a truthy `failRedirect`; otherwise the scan passes it over. */
  predicate Decides(rule: Rule, responses: Responses) {
    HasConditions(rule) &&
    (AllConditionsMet(responses, rule.conditions.value) || Truthy(rule.failRedirect))
  }

  /** The outcome a deciding rule produces. */
  function Verdict(rule: Rule, responses: Responses): LogicResult
    requires Decides(rule, responses)
  {
    if AllConditionsMet(responses, rule.conditions.value) then Pass(rule.passRedirect)
    else Fail(rule.failRedirect)
  }

  /** The `for ... of` loop over the rule array: the first deciding rule gives the result. */
  function ScanRules(rules: seq<Rule>, responses: Responses): (r: LogicResult)
    ensures r.Fail? ==> Truthy(r.redirectPageId)
  {
    if rules == [] then NoDecision
    else
      var rule := rules[0];
      if !HasConditions(rule) then ScanRules(rules[1..], responses)
      else if AllConditionsMet(responses, rule.conditions.value) then Pass(rule.passRedirect)
      else if Truthy(rule.failRedirect) then Fail(rule.failRedirect)
      else ScanRules(rules[1..], responses)
  }

  /** The index of the first deciding rule, when there is one. */
  predicate FirstDecisive(rules: seq<Rule>, responses: Responses, k: int) {
    0 <= k < |rules| && Decides(rules[k], responses) &&
    forall j :: 0 <= j < k ==> !Decides(rules[j], responses)
  }

  /** The scan's result is settled by the first deciding rule: none when no rule decides,
      otherwise that rule's verdict. Rules passed over before it have no effect. */
  lemma {:induction false} ScanRulesFirstDecisive(rules: seq<Rule>, responses: Responses)
    ensures ScanRules(rules, responses) == NoDecision <==>
              forall i :: 0 <= i < |rules| ==> !Decides(rules[i], responses)
    ensures forall k :: FirstDecisive(rules, responses, k) ==>
              ScanRules(rules, responses) == Verdict(rules[k], responses)
  {
    if rules != [] {
      ScanRulesFirstDecisive(rules[1..], responses);
      forall k | FirstDecisive(rules, responses, k)
        ensures ScanRules(rules, responses) == Verdict(rules[k], responses)
      {
        if k > 0 {
          assert !Decides(rules[0], responses);
          assert FirstDecisive(rules[1..], responses, k - 1);
        }
      }
      if forall i :: 0 <= i < |rules[1..]| ==> !Decides(rules[1..][i], responses) {
        if !Decides(rules[0], responses) {
          forall i | 0 <= i < |rules| ensures !Decides(rules[i], responses) {
            if i > 0 {
              assert rules[i] == rules[1..][i - 1];
            }
          }
        }
      } else {
        var i :| 0 <= i < |rules[1..]| && Decides(rules[1..][i], responses);
        assert Decides(rules[i + 1], responses);
      }
    }
  }

  /** `evaluateConditionalLogic`: only a non-empty array of rules is consulted. */
  function EvaluateLogic(logic: PageLogic, responses: Responses): (r: LogicResult)
    ensures !logic.RuleList? ==> r == NoDecision
    ensures logic.RuleList? ==> r == ScanRules(logic.rules, responses)
    ensures r.Fail? ==> Truthy(r.redirectPageId)
  {
    match logic
    case RuleList(rules) =>
      if |rules| == 0 then NoDecision
      else ScanRules(rules, responses)
    case _ => NoDecision
  }

  /** The redirect a result asks for, when it names a (truthy) page id. */
  predicate Redirects(r: LogicResult) {
    (r.Pass? || r.Fail?) && Truthy(r.redirectPageId)
  }

  /** `handleNextPage`: follow a redirect to the first page with that id, staying put when no
      page has it; otherwise advance by one unless already on the last page. */
  function NextPage(pages: seq<Page>, index: int, responses: Responses): (r: int)
    requires 0 <= index < |pages|
    ensures 0 <= r < |pages|
    ensures var res := EvaluateLogic(pages[index].conditionalLogic, responses);
            if Redirects(res) then
              (FindPageIndex(pages, res.redirectPageId.value) == -1 ==> r == index) &&
              (FindPageIndex(pages, res.redirectPageId.value) != -1 ==>
                 pages[r].id == res.redirectPageId.value &&
                 forall j :: 0 <= j < r ==> pages[j].id != res.redirectPageId.value)
            else
              r == (if index < |pages| - 1 then index + 1 else index)
  {
    var res := EvaluateLogic(pages[index].conditionalLogic, responses);
    if Redirects(res) then
      var target := FindPageIndex(pages, res.redirectPageId.value);
      if target != -1 then target else index
    else if index < |pages| - 1 then index + 1
    else index
  }

  /** `handlePrevPage`. */
  function PrevPage(index: int): (r: int)
    ensures index > 0 ==> r == index - 1
    ensures index <= 0 ==> r == index
  {
    if index > 0 then index - 1 else index
  }

  /** The viewer's session: recorded answers and the page shown. */
  datatype ViewerState = ViewerState(responses: Responses, pageIndex: int)

  /** `handleInputChange`: record `value` for `questionId` and nothing else. */
  function RecordAnswer(st: ViewerState, questionId: string, value: Answer): (st': ViewerState)
    ensures st'.pageIndex == st.pageIndex
    ensures questionId in st'.responses && st'.responses[questionId] == value
    ensures st'.responses.Keys == st.responses.Keys + {questionId}
    ensures forall q :: q in st.responses && q != questionId ==> st'.responses[q] == st.responses[q]
  {
    st.(responses := st.responses[questionId := value])
  }

  /** What the respondent can do on a page. */
  datatype Action = PressNext | PressPrev | Input(questionId: string, value: Answer)

  function Step(pages: seq<Page>, st: ViewerState, a: Action): ViewerState
    requires 0 <= st.pageIndex < |pages|
  {
    match a
    case PressNext => st.(pageIndex := NextPage(pages, st.pageIndex, st.responses))
    case PressPrev => st.(pageIndex := PrevPage(st.pageIndex))
    case Input(q, v) => RecordAnswer(st, q, v)
  }

  /** Run a sequence of actions from `st`. */
  function Run(pages: seq<Page>, st: ViewerState, actions: seq<Action>): ViewerState
    requires 0 <= st.pageIndex < |pages|
    decreases |actions|
  {
    if actions == [] then st
    else
      var st1 := Step(pages, st, actions[0]);
      assert 0 <= st1.pageIndex < |pages|;
      Run(pages, st1, actions[1..])
  }

  /** Whatever the respondent does, the page index stays within the form's pages, and the
      recorded answers only ever gain keys. */
  lemma {:induction false} RunStaysInBounds(pages: seq<Page>, st: ViewerState, actions: seq<Action>)
    requires 0 <= st.pageIndex < |pages|
    ensures 0 <= Run(pages, st, actions).pageIndex < |pages|
    ensures st.responses.Keys <= Run(pages, st, actions).responses.Keys
    decreases |actions|
  {
    if actions != [] {
      RunStaysInBounds(pages, Step(pages, st, actions[0]), actions[1..]);
    }
  }

  /** Navigation never alters recorded answers. */
  lemma NavigationKeepsResponses(pages: seq<Page>, st: ViewerState)
    requires 0 <= st.pageIndex < |pages|
    ensures Step(pages, st, PressNext).responses == st.responses
    ensures Step(pages, st, PressPrev).responses == st.responses
  {
  }

  /** One `{questionId, answer}` entry of the submitted payload. */
  datatype AnswerEntry = AnswerEntry(questionId: string, answer: Answer)

  /** The question ids a payload carries. */
  function PayloadKeys(answers: seq<AnswerEntry>): set<string> {
    set i | 0 <= i < |answers| :: answers[i].questionId
  }

  /** An entry carries the answer recorded for its question. */
  predicate Carries(responses: Responses, entry: AnswerEntry) {
    entry.questionId in responses && entry.answer == responses[entry.questionId]
  }

  lemma PayloadKeysSnoc(answers: seq<AnswerEntry>, entry: AnswerEntry)
    ensures PayloadKeys(answers + [entry]) == PayloadKeys(answers) + {entry.questionId}
  {
    var extended := answers + [entry];
    assert forall i :: 0 <= i < |answers| ==> extended[i] == answers[i];
    assert extended[|answers|] == entry;
    forall k | k in PayloadKeys(extended) ensures k in PayloadKeys(answers) + {entry.questionId} {
      var i :| 0 <= i < |extended| && extended[i].questionId == k;
      if i < |answers| {
        assert answers[i].questionId == k;
      }
    }
    forall k | k in PayloadKeys(answers) ensures k in PayloadKeys(extended) {
      var i :| 0 <= i < |answers| && answers[i].questionId == k;
      assert extended[i].questionId == k;
    }
  }

  /** What the payload loop keeps: the entries built so far and the keys still to visit
      split the recorded keys between them, without repetition. */
  predicate PayloadSoFar(responses: Responses, answers: seq<AnswerEntry>, remaining: set<string>) {
    && remaining !! PayloadKeys(answers)
    && remaining + PayloadKeys(answers) == responses.Keys
    && |answers| + |remaining| == |responses.Keys|
    && (forall i :: 0 <= i < |answers| ==> Carries(responses, answers[i]))
    && (forall i, j :: 0 <= i < j < |answers| ==> answers[i].questionId != answers[j].questionId)
  }

  lemma PayloadStep(responses: Responses, answers: seq<AnswerEntry>, remaining: set<string>, q: string)
    requires PayloadSoFar(responses, answers, remaining)
    requires q in remaining
    ensures PayloadSoFar(responses, answers + [AnswerEntry(q, responses[q])], remaining - {q})
  {
    var entry := AnswerEntry(q, responses[q]);
    var extended := answers + [entry];
    forall i | 0 <= i < |answers| ensures answers[i].questionId != q {
      assert answers[i].questionId in PayloadKeys(answers);
    }
    PayloadKeysSnoc(answers, entry);
    var rest := remaining - {q};
    assert rest !! PayloadKeys(extended);
    assert rest + PayloadKeys(extended) == responses.Keys;
    assert |rest| == |remaining| - 1;
    forall i | 0 <= i < |extended| ensures Carries(responses, extended[i]) {
      if i < |answers| {
        assert extended[i] == answers[i];
      }
    }
    forall i, j | 0 <= i < j < |extended| ensures extended[i].questionId != extended[j].questionId {
      assert extended[i] == answers[i];
      if j < |answers| {
        assert extended[j] == answers[j];
      }
    }
  }

  /** `Object.keys(responses).map(...)` in `handleSubmit`: exactly one entry per recorded key,
      carrying that key's answer. */
  method AnswersPayload(responses: Responses) returns (answers: seq<AnswerEntry>)
    ensures PayloadKeys(answers) == responses.Keys
    ensures |answers| == |responses.Keys|
    ensures forall i :: 0 <= i < |answers| ==> Carries(responses, answers[i])
    ensures forall i, j :: 0 <= i < j < |answers| ==> answers[i].questionId != answers[j].questionId
  {
    answers := [];
    var remaining := responses.Keys;
    while remaining != {}
      invariant PayloadSoFar(responses, answers, remaining)
      decreases |remaining|
    {
      var q :| q in remaining;
      PayloadStep(responses, answers, remaining, q);
      answers := answers + [AnswerEntry(q, responses[q])];
      remaining := remaining - {q};
    }
  }
}

=== FILE: preview.dfy ===
/** The author's preview of a form: linear navigation and no submission. */
module Preview {
  import Navigation

  /** `handleNextPage` in the preview: one page forward unless on the last; no logic consulted. */
  function PreviewNext(pageCount: int, index: int): (r: int)
    ensures index < pageCount - 1 ==> r == index + 1
    ensures index >= pageCount - 1 ==> r == index
  {
    if index < pageCount - 1 then index + 1 else index
  }

  /** `handlePrevPage` in the preview is the viewer's Previous, written out again in the source. */
  function PreviewPrev(index: int): (r: int)
    ensures index > 0 ==> r == index - 1
    ensures index <= 0 ==> r == index
  {
    Navigation.PrevPage(index)
  }

  /** Previous and Next keep the preview's index among the pages. */
  lemma PreviewStaysInBounds(pageCount: int, index: int)
    requires 0 <= index < pageCount
    ensures 0 <= PreviewNext(pageCount, index) < pageCount
    ensures 0 <= PreviewPrev(index) < pageCount
  {
  }

  /** Next undoes Previous whenever Previous moved. */
  lemma NextUndoesPrev(pageCount: int, index: int)
    requires 0 < index < pageCount
    ensures PreviewNext(pageCount, PreviewPrev(index)) == index
  {
  }

  /** What a submit can do: show a notice, or post the answers to the form's submit endpoint. */
  datatype SubmitEffect = InfoNotice(message: string) | PostAnswers(formId: string)

  /** Submitting the preview never posts anything; it only shows an informational notice. */
  function PreviewSubmitAction(formId: string): (r: SubmitEffect)
    ensures !r.PostAnswers?
  {
    InfoNotice("This is a preview. Form submissions are disabled.")
  }
}

=== FILE: profile.dfy ===
/** The profile page: the editable record, its dirty flag, and the avatar initials. */
module Profile {
  import opened Wrappers
  import Strings

  /** A profile object as an insertion-ordered list of key/value pairs. Comparing two such lists
      is what comparing their `JSON.stringify` texts amounts to: same keys, in the same order,
      with the same values. */
  type Record = seq<(string, string)>

  predicate HasKey(r: Record, key: string) {
    exists i :: 0 <= i < |r| && r[i].0 == key
  }

  predicate DistinctKeys(r: Record) {
    forall i, j :: 0 <= i < j < |r| ==> r[i].0 != r[j].0
  }

  /** The value under `key`, if any (the first one). */
  function Get(r: Record, key: string): (v: Option<string>)
    ensures v.Some? <==> HasKey(r, key)
  {
    if r == [] then None
    else if r[0].0 == key then Some(r[0].1)
    else Get(r[1..], key)
  }

  /** The position of the first pair under `key`. */
  function KeyIndex(r: Record, key: string): (i: nat)
    requires HasKey(r, key)
    ensures i < |r| && r[i].0 == key
    ensures forall j :: 0 <= j < i ==> r[j].0 != key
  {
    if r[0].0 == key then 0
    else
      assert HasKey(r[1..], key) by {
        var i :| 0 <= i < |r| && r[i].0 == key;
        assert r[1..][i - 1] == r[i];
      }
      1 + KeyIndex(r[1..], key)
  }

  /** `{...prev, [field]: value}`: an existing key keeps its position and takes the new value;
      a new key is appended. */
  function Set(r: Record, key: string, value: string): (s: Record)
    ensures Get(s, key) == Some(value)
    ensures forall k :: k != key ==> Get(s, k) == Get(r, k)
    ensures HasKey(r, key) ==> |s| == |r|
    ensures HasKey(r, key) ==> forall i :: 0 <= i < |r| ==> s[i] == (if i == KeyIndex(r, key) then (key, value) else r[i])
    ensures !HasKey(r, key) ==> s == r + [(key, value)]
  {
    if r == [] then [(key, value)]
    else if r[0].0 == key then [(key, value)] + r[1..]
    else [r[0]] + Set(r[1..], key, value)
  }

  /** Setting a present field back to the value it had restores the record exactly. */
  lemma {:induction false} SetBackRestores(r: Record, key: string, value: string)
    requires Get(r, key).Some?
    ensures Set(Set(r, key, value), key, Get(r, key).value) == r
  {
    var once := Set(r, key, value);
    if r[0].0 == key {
      assert once == [(key, value)] + r[1..];
      assert once[1..] == r[1..];
    } else {
      var tail := Set(r[1..], key, value);
      assert once == [r[0]] + tail;
      assert once[1..] == tail;
      assert Get(r, key) == Get(r[1..], key);
      SetBackRestores(r[1..], key, value);
    }
  }

  /** Typing into a field the record does not have yet always makes it differ, even when the
      typed value is empty: the key itself is new. */
  lemma SetNewKeyChanges(r: Record, key: string, value: string)
    requires !HasKey(r, key)
    ensures Set(r, key, value) != r
  {
    assert |Set(r, key, value)| == |r| + 1;
  }

  /** Setting a field to the value it already holds leaves the record exactly as it was. */
  lemma {:induction false} SetSameValueUnchanged(r: Record, key: string)
    requires Get(r, key).Some?
    ensures Set(r, key, Get(r, key).value) == r
  {
    if r[0].0 != key {
      SetSameValueUnchanged(r[1..], key);
    }
  }

  /** The signed-in user's stored fields; `None` stands for a missing or falsy value. */
  datatype User = User(name: Option<string>, email: Option<string>, phone: Option<string>, location: Option<string>)

  datatype State = State(profile: Record, original: Record)

  /** `JSON.stringify(profileData) !== JSON.stringify(originalData)`. */
  predicate HasChanges(s: State) {
    s.profile != s.original
  }

  const DefaultLocation := "USA"

  function UserRecord(u: User): (r: Record)
    ensures |r| == 4 && DistinctKeys(r)
  {
    [("name", u.name.GetOr("")), ("email", u.email.GetOr("")), ("phone", u.phone.GetOr("")),
     ("location", OrElse(u.location.GetOr(""), DefaultLocation))]
  }

  /** The page's state once mounted: with a user, both copies hold the user's fields (location
      defaulting to USA); without one, the blank form against an empty original. */
  function InitialState(user: Option<User>): (s: State)
    ensures user.Some? ==> s.profile == s.original && !HasChanges(s)
    ensures user.None? ==> s.original == [] && HasChanges(s)
  {
    if user.Some? then State(UserRecord(user.value), UserRecord(user.value))
    else State([("name", ""), ("email", ""), ("phone", ""), ("location", DefaultLocation)], [])
  }

  /** `handleInputChange`: only the named field changes. */
  function InputChange(s: State, field: string, value: string): (r: State)
    ensures r.original == s.original
    ensures Get(r.profile, field) == Some(value)
    ensures forall k :: k != field ==> Get(r.profile, k) == Get(s.profile, k)
    ensures r.profile == Set(s.profile, field, value)
  {
    s.(profile := Set(s.profile, field, value))
  }

  /** Typing into a field the value it already holds leaves the page exactly as it was, so a
      clean page stays clean. */
  lemma InputSameValueKeepsState(s: State, field: string)
    requires Get(s.profile, field).Some?
    ensures InputChange(s, field, Get(s.profile, field).value) == s
    ensures !HasChanges(s) ==> !HasChanges(InputChange(s, field, Get(s.profile, field).value))
  {
    SetSameValueUnchanged(s.profile, field);
  }

  /** `handleDiscardChanges`: the profile goes back to the original; nothing is left to save. */
  function Discard(s: State): (r: State)
    ensures r.original == s.original
    ensures !HasChanges(r)
  {
    s.(profile := s.original)
  }

  /** `handleSaveChanges`: after a successful save the current profile becomes the original; a
      failed one changes nothing. */
  function Save(s: State, succeeded: bool): (r: State)
    ensures r.profile == s.profile
    ensures succeeded ==> !HasChanges(r)
    ensures !succeeded ==> r == s
  {
    if succeeded then s.(original := s.profile) else s
  }

  /** Editing a field of a freshly loaded profile and then typing the old value back leaves
      nothing to save. */
  lemma EditAndRevert(user: User, field: string, value: string)
    requires HasKey(UserRecord(user), field)
    ensures var s := InitialState(Some(user));
            !HasChanges(InputChange(InputChange(s, field, value), field, Get(s.profile, field).value))
  {
    var s := InitialState(Some(user));
    SetBackRestores(s.profile, field, value);
  }

  /** `word.charAt(0)` for each word, joined: the empty word contributes nothing. */
  function FirstChars(words: seq<string>): (r: string)
    ensures |r| <= |words|
  {
    if words == [] then ""
    else (if words[0] == "" then "" else [words[0][0]]) + FirstChars(words[1..])
  }

  /** A reference reading of the same thing: the characters of `s` that are not spaces and
      begin a word, that is, sit at the start or right after a space. */
  function WordStarts(s: string, atStart: bool): (r: string)
    ensures forall i :: 0 <= i < |r| ==> r[i] != ' '
  {
    if s == [] then ""
    else if s[0] == ' ' then WordStarts(s[1..], true)
    else (if atStart then [s[0]] else "") + WordStarts(s[1..], false)
  }

  /** Splitting on spaces and taking first characters gives the word starts. */
  lemma {:induction false} FirstCharsOfSplit(s: string)
    ensures FirstChars(Strings.Split(s, ' ')) == WordStarts(s, true)
    ensures FirstChars(Strings.Split(s, ' ')[1..]) == WordStarts(s, false)
  {
    if s != [] {
      FirstCharsOfSplit(s[1..]);
      var rest := Strings.Split(s[1..], ' ');
      if s[0] == ' ' {
        assert Strings.Split(s, ' ') == [""] + rest;
        assert ([""] + rest)[1..] == rest;
      } else {
        var head := [s[0]] + rest[0];
        assert Strings.Split(s, ' ') == [head] + rest[1..];
        assert ([head] + rest[1..])[1..] == rest[1..];
      }
    }
  }

  /** `getInitials`: the first character of each space-separated word, upper-cased, at most two. */
  function Initials(name: string): (r: string)
    ensures |r| <= 2
    ensures forall i :: 0 <= i < |r| ==> r[i] != ' '
  {
    var starts := FirstChars(Strings.Split(name, ' '));
    FirstCharsOfSplit(name);
    var up := Strings.Upper(starts);
    if |up| <= 2 then up else up[..2]
  }

  /** The initials are the upper-cased first two word starts of the name. */
  lemma InitialsAreWordStarts(name: string)
    ensures var w := Strings.Upper(WordStarts(name, true));
            Initials(name) == if |w| <= 2 then w else w[..2]
  {
    FirstCharsOfSplit(name);
  }

  /** The avatar's text: `getInitials(profileData.name || 'User')`, so an empty name shows `U`. */
  function AvatarInitials(name: string): (r: string)
    ensures name == "" ==> r == "U"
    ensures name != "" ==> r == Initials(name)
  {
    var shown := if name == "" then "User" else name;
    InitialsAreWordStarts(shown);
    if name == "" then
      assert WordStarts("User", true) == "U" by {
        assert "User"[1..] == "ser" && "ser"[1..] == "er" && "er"[1..] == "r" && "r"[1..] == [];
      }
      assert Strings.Upper("U") == "U";
      Initials(shown)
    else Initials(shown)
  }

  /** The avatar is blank only for a name made of spaces alone. */
  lemma AvatarBlankIffSpaces(name: string)
    ensures AvatarInitials(name) == "" <==> name != "" && forall i :: 0 <= i < |name| ==> name[i] == ' '
  {
    InitialsAreWordStarts(name);
    WordStartsEmptyIffSpaces(name);
  }

  lemma {:induction false} WordStartsEmptyIffSpaces(s: string)
    ensures WordStarts(s, true) == "" <==> forall i :: 0 <= i < |s| ==> s[i] == ' '
  {
    if s != [] {
      WordStartsEmptyIffSpaces(s[1..]);
      if s[0] == ' ' {
        assert (forall i :: 0 <= i < |s| ==> s[i] == ' ') <==> (forall i :: 0 <= i < |s[1..]| ==> s[1..][i] == ' ');
      }
    }
  }
}

=== FILE: renderer.dfy ===
/** How a rendered question turns respondent input into a new answer value. */
module Renderer {
  import opened Wrappers
  import opened FormModel
  import Arrays

  /** `handleMultipleChoice`: the chosen option's id is the answer. */
  function ChooseOption(optionId: string): (a: Answer)
    ensures a.Single? && a.v.Str? && a.v.s == optionId
  {
    Single(Str(optionId))
  }

  /** The current checkbox selection: a non-array value counts as nothing selected. */
  function CheckedItems(value: Answer): (items: seq<Element>)
    ensures value.Single? ==> items == []
    ensures value.Many? ==> items == value.items
  {
    if value.Many? then value.items else []
  }

  /** Whether an option's box shows as checked. */
  predicate IsChecked(value: Answer, optionId: string) {
    value.Many? && Prim(Str(optionId)) in value.items
  }

  /** `handleCheckboxChange`: a checked option is unchecked (every occurrence removed), an
      unchecked one is appended; the other options keep their state. */
  function CheckboxChange(value: Answer, optionId: string): (a: Answer)
    ensures a.Many?
    ensures IsChecked(a, optionId) <==> !IsChecked(value, optionId)
    ensures forall o :: o != optionId ==> (IsChecked(a, o) <==> IsChecked(value, o))
    ensures !IsChecked(value, optionId) ==> a.items == CheckedItems(value) + [Prim(Str(optionId))]
    ensures IsChecked(value, optionId) ==> a.items == Arrays.Without(value.items, Prim(Str(optionId)))
  {
    Many(Arrays.Toggle(CheckedItems(value), Prim(Str(optionId))))
  }

  /** Checking an unchecked option and unchecking it again restores the selection. */
  lemma CheckboxTwiceRestores(items: seq<Element>, optionId: string)
    requires Prim(Str(optionId)) !in items
    ensures CheckboxChange(CheckboxChange(Many(items), optionId), optionId) == Many(items)
  {
    Arrays.ToggleTwiceAbsent(items, Prim(Str(optionId)));
  }

  /** `question.fileSettings?.maxFiles || 5`. */
  function MaxFiles(settings: Option<FileSettings>): (n: int)
    ensures settings.None? ==> n == 5
    ensures settings.Some? && settings.value.maxFiles != 0 ==> n == settings.value.maxFiles
    ensures settings.Some? && settings.value.maxFiles == 0 ==> n == 5
  {
    if settings.Some? then OrNum(settings.value.maxFiles, 5) else 5
  }

  datatype UploadOutcome = TooManyFiles(limit: int) | Uploaded(answer: Answer)

  /** `handleFileUpload`: more files than the limit are refused with an alert and the answer is
      left alone; otherwise the answer becomes the files' records, in order. */
  function FileUpload(settings: Option<FileSettings>, files: seq<FileInfo>): (r: UploadOutcome)
    ensures r.TooManyFiles? <==> |files| > MaxFiles(settings)
    ensures r.TooManyFiles? ==> r.limit == MaxFiles(settings)
    ensures r.Uploaded? ==> r.answer.Many? && |r.answer.items| == |files| &&
                            forall i :: 0 <= i < |files| ==> r.answer.items[i] == FileRec(files[i])
  {
    var limit := MaxFiles(settings);
    if |files| > limit then TooManyFiles(limit)
    else Uploaded(Many(seq(|files|, i requires 0 <= i < |files| => FileRec(files[i]))))
  }

  /** `value.filter((_, i) => i !== index)`, walked element by element. */
  function DropIndex<T>(items: seq<T>, index: int): (r: seq<T>)
    ensures 0 <= index < |items| ==> r == items[..index] + items[index + 1..]
    ensures !(0 <= index < |items|) ==> r == items
  {
    if items == [] then []
    else if index == 0 then items[1..]
    else
      var rest := DropIndex(items[1..], index - 1);
      assert 0 < index < |items| ==>
               [items[0]] + items[1..][..index - 1] == items[..index] && items[1..][index..] == items[index + 1..];
      assert !(0 <= index < |items|) ==> [items[0]] + items[1..] == items;
      [items[0]] + rest
  }

  /** The remove button of uploaded file `index`: exactly that entry goes. */
  function RemoveUploadedFile(value: Answer, index: int): (a: Answer)
    requires value.Many? && 0 <= index < |value.items|
    ensures a.Many? && |a.items| == |value.items| - 1
    ensures forall k :: 0 <= k < index ==> a.items[k] == value.items[k]
    ensures forall k :: index < k < |value.items| ==> a.items[k - 1] == value.items[k]
  {
    Many(DropIndex(value.items, index))
  }

  /** Removing an uploaded file leaves what uploading the other files would have recorded. */
  lemma UploadThenRemove(settings: Option<FileSettings>, files: seq<FileInfo>, i: int)
    requires FileUpload(settings, files).Uploaded?
    requires 0 <= i < |files|
    ensures FileUpload(settings, files[..i] + files[i + 1..]).Uploaded?
    ensures RemoveUploadedFile(FileUpload(settings, files).answer, i) ==
            FileUpload(settings, files[..i] + files[i + 1..]).answer
  {
    var rest := files[..i] + files[i + 1..];
    var m := FileUpload(settings, files).answer.items;
    var a := RemoveUploadedFile(FileUpload(settings, files).answer, i).items;
    var b := FileUpload(settings, rest).answer.items;
    assert |a| == |rest| == |b|;
    forall k | 0 <= k < |rest| ensures a[k] == b[k] {
      if k < i {
        assert a[k] == m[k] == FileRec(files[k]);
        assert rest[k] == files[k];
      } else {
        assert a[k] == m[k + 1] == FileRec(files[k + 1]);
        assert rest[k] == files[k + 1];
      }
    }
    assert a == b;
  }

  /** The linear scale's range: `min || 0` and `max || 10`. */
  function ScaleMin(settings: Option<LinearScaleSettings>): int {
    if settings.Some? then OrNum(settings.value.min, 0) else 0
  }

  function ScaleMax(settings: Option<LinearScaleSettings>): (m: int)
    ensures m != 0
  {
    if settings.Some? then OrNum(settings.value.max, 10) else 10
  }

  /** The value the slider shows: the answer when one is recorded, else `defaultValue || min`. */
  function ShownScaleValue(settings: Option<LinearScaleSettings>, value: Answer): (shown: Answer)
    ensures value != Single(Undefined) ==> shown == value
    ensures value == Single(Undefined) && settings.None? ==> shown == Single(Num(0))
    ensures value == Single(Undefined) && settings.Some? && settings.value.defaultValue != 0 ==>
              shown == Single(Num(settings.value.defaultValue))
    ensures value == Single(Undefined) && settings.Some? && settings.value.defaultValue == 0 ==>
              shown == Single(Num(ScaleMin(settings)))
  {
    if value != Single(Undefined) then value
    else
      var defaultValue := if settings.Some? then settings.value.defaultValue else 0;
      Single(Num(OrNum(defaultValue, ScaleMin(settings))))
  }

  /** Moving the slider records the integer it lands on. */
  function MoveSlider(position: int): (a: Answer)
    ensures a.Single? && a.v == Num(position)
  {
    Single(Num(position))
  }

  /** Once the slider has moved, it shows the recorded position, whatever the settings. */
  lemma SliderShowsRecorded(settings: Option<LinearScaleSettings>, position: int)
    ensures ShownScaleValue(settings, MoveSlider(position)) == Single(Num(position))
  {
  }

  /** Before any answer, the slider starts inside its range whenever the configured default is
      unset or inside the range. */
  lemma UnansweredShownInRange(settings: Option<LinearScaleSettings>)
    requires ScaleMin(settings) <= ScaleMax(settings)
    requires settings.Some? && settings.value.defaultValue != 0 ==>
               ScaleMin(settings) <= settings.value.defaultValue <= ScaleMax(settings)
    ensures var shown := ShownScaleValue(settings, Single(Undefined));
            shown.Single? && shown.v.Num? && ScaleMin(settings) <= shown.v.n <= ScaleMax(settings)
  {
  }

  /** `ratingSettings.maxStars || 5`. */
  function MaxStars(settings: Option<RatingSettings>): (n: int)
    ensures n != 0
  {
    if settings.Some? then OrNum(settings.value.maxStars, 5) else 5
  }

  /** `value || 0` for a rating answer. */
  function CurrentRating(value: Answer): (n: int)
    ensures value.Single? && value.v.Num? ==> n == value.v.n
    ensures !(value.Single? && value.v.Num?) ==> n == 0
  {
    if value.Single? && value.v.Num? then value.v.n else 0
  }

  /** Star `star` (counted from 1) is drawn filled when it does not exceed the rating. */
  predicate StarFilled(value: Answer, star: int) {
    star <= CurrentRating(value)
  }

  /** Clicking star `star` records that number. */
  function ClickStar(star: int): (a: Answer)
    ensures CurrentRating(a) == star
  {
    Single(Num(star))
  }

  /** After clicking star `k`, exactly the stars 1..k are filled. */
  lemma ClickStarFillsPrefix(k: int, star: int)
    requires 1 <= star
    ensures StarFilled(ClickStar(k), star) <==> star <= k
  {
  }
}

=== FILE: reset_modal.dfy ===
/** The reset-password modal (`ForgotPasswordModalFlow`): a six-digit OTP, then a new password
    of at least six characters, for an email its caller passes in. */
module ResetModal {
  import opened Credentials
  import Strings
  import ForgotPassword

  /** The modal's two steps (the source numbers them 1 and 2). */
  datatype Step = EnterOtp | EnterPassword

  datatype ModalForm = ModalForm(otp: string, newPassword: string, confirmPassword: string)

  datatype State = State(step: Step, form: ModalForm)

  datatype Effect = NoEffect | ShowError(verdict: PasswordVerdict) | RequestReset(email: string, otp: string, password: string)

  const MinPasswordLength := 6

  /** The OTP box's change handler, which sanitises before storing. */
  function TypeOtp(s: State, typed: string): (r: State)
    ensures r.step == s.step
    ensures r.form.newPassword == s.form.newPassword && r.form.confirmPassword == s.form.confirmPassword
    ensures WellFormedOtp(s.form.otp) ==> WellFormedOtp(r.form.otp)
    ensures |Strings.KeepDigits(typed)| > OtpLength ==> r.form.otp == s.form.otp
    ensures |Strings.KeepDigits(typed)| <= OtpLength ==> r.form.otp == Strings.KeepDigits(typed)
  {
    s.(form := s.form.(otp := OtpInput(s.form.otp, typed)))
  }

  /** `handleOTPVerify`: the password step opens exactly when the OTP has six characters. */
  function VerifyOtp(s: State): (r: State)
    ensures r.form == s.form
    ensures r.step == EnterPassword <==> OtpComplete(s.form.otp) || s.step == EnterPassword
    ensures !OtpComplete(s.form.otp) ==> r == s
  {
    if !OtpComplete(s.form.otp) then s else s.(step := EnterPassword)
  }

  /** The modal's own password check: an empty field first, then a mismatch, then fewer than
      six characters. */
  function CheckModalPassword(password: string, confirm: string): (v: PasswordVerdict)
    ensures v == EmptyField <==> password == "" || confirm == ""
    ensures v == Mismatch <==> password != "" && confirm != "" && password != confirm
    ensures v == Accepted <==> password != "" && password == confirm && |password| >= MinPasswordLength
  {
    if password == "" || confirm == "" then EmptyField
    else CheckPassword(password, confirm, MinPasswordLength)
  }

  /** The extra empty-field test never changes which passwords are accepted: it only changes
      the message for an empty one. */
  lemma ModalAcceptsAsPlainCheck(password: string, confirm: string)
    ensures CheckModalPassword(password, confirm) == Accepted
        <==> CheckPassword(password, confirm, MinPasswordLength) == Accepted
  {
  }

  /** `handlePasswordReset`: only an accepted password requests the reset, for the caller's email. */
  function ResetPassword(s: State, userEmail: string): (r: Effect)
    ensures r.RequestReset? <==> CheckModalPassword(s.form.newPassword, s.form.confirmPassword) == Accepted
    ensures r.RequestReset? ==> r == RequestReset(userEmail, s.form.otp, s.form.newPassword)
    ensures r.ShowError? ==> r.verdict != Accepted
  {
    var v := CheckModalPassword(s.form.newPassword, s.form.confirmPassword);
    if v == Accepted then RequestReset(userEmail, s.form.otp, s.form.newPassword) else ShowError(v)
  }

  /** `handleBackToOTP`: back to the OTP step with the OTP kept and both passwords cleared. */
  function BackToOtp(s: State): (r: State)
    ensures r.step == EnterOtp
    ensures r.form.otp == s.form.otp
    ensures r.form.newPassword == "" && r.form.confirmPassword == ""
  {
    State(EnterOtp, s.form.(newPassword := "", confirmPassword := ""))
  }

  /** Going back and verifying again returns to the password step with the same OTP, but the
      typed passwords are gone. */
  lemma BackThenVerify(s: State)
    requires OtpComplete(s.form.otp)
    ensures VerifyOtp(BackToOtp(s)) == State(EnterPassword, ModalForm(s.form.otp, "", ""))
  {
  }

  /** The two reset screens disagree on the minimum length: every password the page accepts
      the modal accepts too, but not the other way round. */
  lemma ModalLooserThanPage(password: string, confirm: string)
    ensures CheckPassword(password, confirm, ForgotPassword.MinPasswordLength) == Accepted
        ==> CheckModalPassword(password, confirm) == Accepted
    ensures CheckModalPassword("abcdef", "abcdef") == Accepted
    ensures CheckPassword("abcdef", "abcdef", ForgotPassword.MinPasswordLength) == TooShort(8)
  {
  }
}

=== FILE: sections.dfy ===
/** Grouping a page layout into coloured sections, as the viewer and the preview render it. */
module Sections {
  import opened Wrappers
  import opened FormModel

  const White := "#ffffff"

  datatype Section = Section(color: string, questions: seq<Question>)

  /** `item.color || form.design?.sectionColor || '#ffffff'`. */
  function BreakColor(itemColor: Option<string>, design: Option<Design>): (c: string)
    ensures Truthy(itemColor) ==> c == itemColor.value
    ensures !Truthy(itemColor) && design.Some? && design.value.sectionColor != "" ==> c == design.value.sectionColor
    ensures !Truthy(itemColor) && (design.None? || design.value.sectionColor == "") ==> c == White
  {
    if Truthy(itemColor) then itemColor.value
    else if design.Some? && design.value.sectionColor != "" then design.value.sectionColor
    else White
  }

  /** The questions the layout's id strings resolve to, in layout order; unknown ids are dropped. */
  function ResolvedQuestions(layout: seq<LayoutItem>, questions: seq<Question>): seq<Question> {
    if layout == [] then []
    else
      var head := match layout[0]
        case QuestionRef(id) =>
          var q := FindQuestion(questions, id);
          if q.Some? then [q.value] else []
        case _ => [];
      head + ResolvedQuestions(layout[1..], questions)
  }

  lemma {:induction false} ResolvedAppend(a: seq<LayoutItem>, b: seq<LayoutItem>, questions: seq<Question>)
    ensures ResolvedQuestions(a + b, questions) == ResolvedQuestions(a, questions) + ResolvedQuestions(b, questions)
  {
    if a == [] {
      assert a + b == b;
    } else {
      assert (a + b)[1..] == a[1..] + b;
      ResolvedAppend(a[1..], b, questions);
    }
  }

  /** Section breaks resolve to nothing: two layouts that differ only in their breaks resolve
      to the same questions. */
  lemma {:induction false} ResolvedIgnoresBreaks(a: seq<LayoutItem>, b: seq<LayoutItem>, questions: seq<Question>)
    requires |a| == |b|
    requires forall i :: 0 <= i < |a| ==> a[i] == b[i] || (a[i].SectionBreak? && b[i].SectionBreak?)
    ensures ResolvedQuestions(a, questions) == ResolvedQuestions(b, questions)
  {
    if a != [] {
      ResolvedIgnoresBreaks(a[1..], b[1..], questions);
    }
  }

  /** Whether the layout has a section break. */
  predicate HasBreak(layout: seq<LayoutItem>) {
    exists i :: 0 <= i < |layout| && layout[i].SectionBreak?
  }

  /** All the questions of the sections, in order. */
  function Flatten(sections: seq<Section>): seq<Question> {
    if sections == [] then [] else sections[0].questions + Flatten(sections[1..])
  }

  predicate AllNonEmpty(sections: seq<Section>) {
    forall i :: 0 <= i < |sections| ==> |sections[i].questions| > 0
  }

  /** A section is kept only when it holds at least one question. */
  function Close(done: seq<Section>, current: Section): (r: seq<Section>)
    ensures Flatten(r) == Flatten(done) + current.questions
    ensures AllNonEmpty(done) ==> AllNonEmpty(r)
  {
    FlattenAppend(done, [current]);
    if |current.questions| > 0 then done + [current] else done
  }

  /** The `forEach` over the layout: question ids join the open section, a section break closes
      it (when non-empty) and opens a new one in the break's colour. */
  function GroupFrom(layout: seq<LayoutItem>, questions: seq<Question>, design: Option<Design>,
                     current: Section, done: seq<Section>): seq<Section>
  {
    if layout == [] then Close(done, current)
    else match layout[0]
      case QuestionRef(id) =>
        var q := FindQuestion(questions, id);
        var current' := if q.Some? then current.(questions := current.questions + [q.value]) else current;
        GroupFrom(layout[1..], questions, design, current', done)
      case SectionBreak(_, color) =>
        GroupFrom(layout[1..], questions, design, Section(BreakColor(color, design), []), Close(done, current))
      case OtherItem =>
        GroupFrom(layout[1..], questions, design, current, done)
  }

  /** The sections the viewer renders for a page: grouping starts with an open white section. */
  function GroupLayout(layout: seq<LayoutItem>, questions: seq<Question>, design: Option<Design>): seq<Section> {
    GroupFrom(layout, questions, design, Section(White, []), [])
  }

  lemma {:induction false} FlattenAppend(a: seq<Section>, b: seq<Section>)
    ensures Flatten(a + b) == Flatten(a) + Flatten(b)
  {
    if a != [] {
      assert (a + b)[1..] == a[1..] + b;
      FlattenAppend(a[1..], b);
    } else {
      assert a + b == b;
    }
  }

  /** Grouping loses and reorders nothing: the sections' questions, read in order, are exactly
      the questions the layout's ids resolve to; and every section holds at least one question. */
  lemma {:induction false} GroupFromContents(layout: seq<LayoutItem>, questions: seq<Question>, design: Option<Design>,
                                             current: Section, done: seq<Section>)
    ensures Flatten(GroupFrom(layout, questions, design, current, done)) ==
            Flatten(done) + current.questions + ResolvedQuestions(layout, questions)
    ensures AllNonEmpty(done) ==> AllNonEmpty(GroupFrom(layout, questions, design, current, done))
  {
    if layout != [] {
      match layout[0]
      case QuestionRef(id) =>
        var q := FindQuestion(questions, id);
        var current' := if q.Some? then current.(questions := current.questions + [q.value]) else current;
        GroupFromContents(layout[1..], questions, design, current', done);
      case SectionBreak(_, color) =>
        GroupFromContents(layout[1..], questions, design, Section(BreakColor(color, design), []), Close(done, current));
      case OtherItem =>
        GroupFromContents(layout[1..], questions, design, current, done);
    }
  }

  lemma GroupLayoutContents(layout: seq<LayoutItem>, questions: seq<Question>, design: Option<Design>)
    ensures Flatten(GroupLayout(layout, questions, design)) == ResolvedQuestions(layout, questions)
    ensures AllNonEmpty(GroupLayout(layout, questions, design))
  {
    GroupFromContents(layout, questions, design, Section(White, []), []);
  }

  /** The open section after a layout item that is not a section break. */
  function Absorb(current: Section, item: LayoutItem, questions: seq<Question>): (r: Section)
    requires !item.SectionBreak?
    ensures r.color == current.color
  {
    match item
    case QuestionRef(id) =>
      var q := FindQuestion(questions, id);
      if q.Some? then current.(questions := current.questions + [q.value]) else current
    case OtherItem => current
  }

  lemma AbsorbStep(layout: seq<LayoutItem>, questions: seq<Question>, design: Option<Design>, current: Section)
    requires layout != [] && !layout[0].SectionBreak?
    ensures GroupFrom(layout, questions, design, current, []) ==
            GroupFrom(layout[1..], questions, design, Absorb(current, layout[0], questions), [])
    ensures Absorb(current, layout[0], questions).questions + ResolvedQuestions(layout[1..], questions) ==
            current.questions + ResolvedQuestions(layout, questions)
  {
  }

  /** With no section break, grouping keeps one section, in the open section's colour, of all
      resolvable questions (none when no id resolves). */
  lemma {:induction false} NoBreakOneSection(layout: seq<LayoutItem>, questions: seq<Question>,
                                                 design: Option<Design>, current: Section)
    requires !HasBreak(layout)
    ensures var qs := current.questions + ResolvedQuestions(layout, questions);
            GroupFrom(layout, questions, design, current, []) ==
              if |qs| > 0 then [current.(questions := qs)] else []
  {
    if layout != [] {
      assert !layout[0].SectionBreak?;
      assert !HasBreak(layout[1..]) by {
        forall i | 0 <= i < |layout[1..]| ensures !layout[1..][i].SectionBreak? {
          assert layout[1..][i] == layout[i + 1];
        }
      }
      var next := Absorb(current, layout[0], questions);
      AbsorbStep(layout, questions, design, current);
      NoBreakOneSection(layout[1..], questions, design, next);
      assert next.(questions := current.questions) == current;
    } else {
      assert current.questions + [] == current.questions;
      assert [] + [current] == [current];
    }
  }

  /** The state of the `forEach` between two layout items: the open section and the closed ones. */
  datatype Grouping = Grouping(current: Section, done: seq<Section>)

  /** One item of the `forEach`. */
  function StepItem(g: Grouping, item: LayoutItem, questions: seq<Question>, design: Option<Design>): Grouping {
    match item
    case QuestionRef(id) =>
      var q := FindQuestion(questions, id);
      if q.Some? then g.(current := g.current.(questions := g.current.questions + [q.value])) else g
    case SectionBreak(_, color) => Grouping(Section(BreakColor(color, design), []), Close(g.done, g.current))
    case OtherItem => g
  }

  /** The `forEach` over a layout, before the last section is closed. */
  function Run(layout: seq<LayoutItem>, questions: seq<Question>, design: Option<Design>, g: Grouping): Grouping {
    if layout == [] then g else Run(layout[1..], questions, design, StepItem(g, layout[0], questions, design))
  }

  lemma {:induction false} GroupFromIsRun(layout: seq<LayoutItem>, questions: seq<Question>, design: Option<Design>,
                                          current: Section, done: seq<Section>)
    ensures var g := Run(layout, questions, design, Grouping(current, done));
            GroupFrom(layout, questions, design, current, done) == Close(g.done, g.current)
  {
    if layout != [] {
      var g := StepItem(Grouping(current, done), layout[0], questions, design);
      GroupFromIsRun(layout[1..], questions, design, g.current, g.done);
    }
  }

  lemma {:induction false} RunAppend(a: seq<LayoutItem>, b: seq<LayoutItem>, questions: seq<Question>,
                                     design: Option<Design>, g: Grouping)
    ensures Run(a + b, questions, design, g) == Run(b, questions, design, Run(a, questions, design, g))
  {
    if a == [] {
      assert a + b == b;
    } else {
      assert (a + b)[1..] == a[1..] + b;
      RunAppend(a[1..], b, questions, design, StepItem(g, a[0], questions, design));
    }
  }

  /** Without a section break, the `forEach` only fills the open section. */
  lemma {:induction false} RunWithoutBreak(layout: seq<LayoutItem>, questions: seq<Question>, design: Option<Design>, g: Grouping)
    requires !HasBreak(layout)
    ensures Run(layout, questions, design, g) ==
            g.(current := g.current.(questions := g.current.questions + ResolvedQuestions(layout, questions)))
  {
    if layout != [] {
      assert !layout[0].SectionBreak?;
      assert !HasBreak(layout[1..]) by {
        forall i | 0 <= i < |layout[1..]| ensures !layout[1..][i].SectionBreak? {
          assert layout[1..][i] == layout[i + 1];
        }
      }
      var next := Absorb(g.current, layout[0], questions);
      assert StepItem(g, layout[0], questions, design) == g.(current := next);
      RunWithoutBreak(layout[1..], questions, design, g.(current := next));
      AbsorbStep(layout, questions, design, g.current);
    } else {
      assert g.current.questions + [] == g.current.questions;
    }
  }

  /** The section a break opens: after the page's last section break, grouping is the grouping
      of the layout before it plus one section in the break's colour (`item.color`, else the
      design's section colour, else white) holding the questions after it, dropped when empty. */
  lemma LastBreakOpensSection(before: seq<LayoutItem>, id: string, color: Option<string>, after: seq<LayoutItem>,
                              questions: seq<Question>, design: Option<Design>)
    requires !HasBreak(after)
    ensures var tail := ResolvedQuestions(after, questions);
            GroupLayout(before + [SectionBreak(id, color)] + after, questions, design) ==
              GroupLayout(before, questions, design) +
              (if |tail| > 0 then [Section(BreakColor(color, design), tail)] else [])
  {
    var init := Grouping(Section(White, []), []);
    var layout := before + [SectionBreak(id, color)] + after;
    var g0 := Run(before, questions, design, init);
    var g1 := Run([SectionBreak(id, color)], questions, design, g0);
    assert [SectionBreak(id, color)][1..] == [];
    var stepped := StepItem(g0, SectionBreak(id, color), questions, design);
    assert g1 == Run([], questions, design, stepped) == stepped;
    assert g1 == Grouping(Section(BreakColor(color, design), []), Close(g0.done, g0.current));
    RunAppend(before, [SectionBreak(id, color)], questions, design, init);
    RunAppend(before + [SectionBreak(id, color)], after, questions, design, init);
    RunWithoutBreak(after, questions, design, g1);
    GroupFromIsRun(layout, questions, design, Section(White, []), []);
    GroupFromIsRun(before, questions, design, Section(White, []), []);
    assert [] + ResolvedQuestions(after, questions) == ResolvedQuestions(after, questions);
  }

  /** The preview's `questionElements`: the layout's id strings, resolved. Its fallback turns an
      empty grouping into one white section of these questions. */
  function PreviewSections(layout: seq<LayoutItem>, questions: seq<Question>, design: Option<Design>): (r: seq<Section>)
    ensures |r| >= 1
    ensures |GroupLayout(layout, questions, design)| > 0 ==> r == GroupLayout(layout, questions, design)
  {
    var sections := GroupLayout(layout, questions, design);
    if |sections| == 0 then [Section(White, ResolvedQuestions(layout, questions))] else sections
  }

  /** The preview's fallback section is always empty: grouping yields no section exactly when no
      layout id resolves, and the fallback resolves the same ids through the same lookup. */
  lemma PreviewFallbackIsEmpty(layout: seq<LayoutItem>, questions: seq<Question>, design: Option<Design>)
    requires |GroupLayout(layout, questions, design)| == 0
    ensures PreviewSections(layout, questions, design) == [Section(White, [])]
  {
    GroupLayoutContents(layout, questions, design);
  }

  /** Grouping yields no section iff no layout id resolves to a question. */
  lemma {:induction false} GroupEmptyIffNothingResolves(layout: seq<LayoutItem>, questions: seq<Question>, design: Option<Design>)
    ensures |GroupLayout(layout, questions, design)| == 0 <==> ResolvedQuestions(layout, questions) == []
  {
    var g := GroupLayout(layout, questions, design);
    GroupLayoutContents(layout, questions, design);
    if |g| > 0 {
      assert |g[0].questions| > 0;
      assert Flatten(g) == g[0].questions + Flatten(g[1..]);
    }
  }
}

=== FILE: sharing.dfy ===
/** The publish modal's share list and the access-control payload it publishes. */
module Sharing {
  import opened Wrappers
  import opened Arrays

  datatype Level = View | Edit | Share | Remove

  datatype Visibility = Public | Restricted

  /** The signed-in owner of the form. */
  datatype Owner = Owner(id: string, email: string)

  /** An access-control entry as stored with the form and as published. */
  datatype AccessEntry = AccessEntry(email: string, level: Level, userId: Option<string>, grantedBy: Option<string>)

  /** A row of the share list shown in the modal. */
  datatype SharedUser = SharedUser(email: string, level: Level, userId: Option<string>, isOwner: bool, grantedBy: Option<string>)

  function OwnerEntry(owner: Owner): SharedUser {
    SharedUser(owner.email, Edit, Some(owner.id), true, Some(owner.id))
  }

  function AsShared(ac: AccessEntry): SharedUser {
    SharedUser(ac.email, ac.level, ac.userId, false, ac.grantedBy)
  }

  /** Every stored entry as a non-owner row, in order. */
  function AllAsShared(existing: seq<AccessEntry>): (r: seq<SharedUser>)
    ensures |r| == |existing|
    ensures forall i :: 0 <= i < |r| ==> r[i] == AsShared(existing[i])
  {
    if existing == [] then [] else [AsShared(existing[0])] + AllAsShared(existing[1..])
  }

  /** Whether a stored entry is listed after the owner: every entry when there is no owner,
      otherwise those whose email differs from the owner's. */
  predicate NotOwners(owner: Option<Owner>, e: AccessEntry) {
    owner.None? || e.email != owner.value.email
  }

  /** The stored entries other than the owner's, as non-owner rows (all of them without an owner):
      every occurrence of each, in stored order, and nothing else. */
  function OthersOf(existing: seq<AccessEntry>, owner: Option<Owner>): (r: seq<SharedUser>)
    ensures forall i :: 0 <= i < |r| ==> !r[i].isOwner
    ensures owner.Some? ==> forall i :: 0 <= i < |r| ==> r[i].email != owner.value.email
    ensures owner.None? ==> r == AllAsShared(existing)
    ensures forall e :: AsShared(e) in r <==> e in existing && NotOwners(owner, e)
    ensures forall e :: NotOwners(owner, e) ==> Count(r, AsShared(e)) == Count(existing, e)
    ensures IsSubsequence(r, AllAsShared(existing))
  {
    if existing == [] then []
    else
      var rest := OthersOf(existing[1..], owner);
      assert AllAsShared(existing)[1..] == AllAsShared(existing[1..]);
      if !NotOwners(owner, existing[0]) then rest
      else
        assert ([AsShared(existing[0])] + rest)[1..] == rest;
        [AsShared(existing[0])] + rest
  }

  /** The share list the modal opens with: the owner first (edit level), then the stored entries
      whose email differs from the owner's. */
  function InitialShareList(owner: Option<Owner>, existing: seq<AccessEntry>): (r: seq<SharedUser>)
    ensures owner.Some? ==> |r| >= 1 && r[0] == OwnerEntry(owner.value) && r[1..] == OthersOf(existing, owner)
    ensures owner.None? ==> r == OthersOf(existing, owner)
    ensures forall i :: 0 <= i < |r| ==> (r[i].isOwner <==> owner.Some? && i == 0)
  {
    if owner.Some? then [OwnerEntry(owner.value)] + OthersOf(existing, owner) else OthersOf(existing, owner)
  }

  /** Restricted exactly when some access was stored before. */
  function InitialVisibility(existing: seq<AccessEntry>): (v: Visibility)
    ensures v == Restricted <==> |existing| > 0
  {
    if |existing| > 0 then Restricted else Public
  }

  predicate Listed(list: seq<SharedUser>, email: string) {
    exists i :: 0 <= i < |list| && list[i].email == email
  }

  predicate DistinctEmails(list: seq<SharedUser>) {
    forall i, j :: 0 <= i < j < |list| ==> list[i].email != list[j].email
  }

  /** The outcome of the user lookup by email. */
  datatype Lookup = LookupFailed | LookupDone(userId: Option<string>)

  datatype AddOutcome = InvalidEmail | AlreadyListed | AddFailed | Added(list: seq<SharedUser>)

  /** `handleAddSharedUser`: an email without `@` is refused, then one already listed; a failed
      lookup (or a missing owner, whose id is read) adds nothing; otherwise the user is appended
      with view access. */
  function AddSharedUser(list: seq<SharedUser>, email: string, owner: Option<Owner>, lookup: Lookup): (r: AddOutcome)
    ensures r == InvalidEmail <==> '@' !in email
    ensures r == AlreadyListed <==> '@' in email && Listed(list, email)
    ensures r.Added? ==> '@' in email && !Listed(list, email) && owner.Some? && lookup.LookupDone?
    ensures r.Added? ==> r.list == list + [SharedUser(email, View, lookup.userId, false, Some(owner.value.id))]
    ensures '@' in email && !Listed(list, email) && owner.Some? && lookup.LookupDone? ==> r.Added?
  {
    if email == "" || '@' !in email then InvalidEmail
    else if Listed(list, email) then AlreadyListed
    else if lookup.LookupFailed? || owner.None? then AddFailed
    else Added(list + [SharedUser(email, View, lookup.userId, false, Some(owner.value.id))])
  }

  /** Adding never introduces a second row for an email. */
  lemma AddKeepsEmailsDistinct(list: seq<SharedUser>, email: string, owner: Option<Owner>, lookup: Lookup)
    requires DistinctEmails(list)
    requires AddSharedUser(list, email, owner, lookup).Added?
    ensures DistinctEmails(AddSharedUser(list, email, owner, lookup).list)
  {
    var r := AddSharedUser(list, email, owner, lookup).list;
    forall i, j | 0 <= i < j < |r| ensures r[i].email != r[j].email {
      if j == |list| {
        assert r[i] == list[i];
        assert !Listed(list, email);
      }
    }
  }

  /** `list.filter(u => u.email !== email)`. */
  function DropEmail(list: seq<SharedUser>, email: string): (r: seq<SharedUser>)
    ensures !Listed(r, email)
    ensures forall u :: u in list && u.email != email ==> u in r
    ensures forall u :: u in r ==> u in list
    ensures forall u: SharedUser :: u.email != email ==> Count(r, u) == Count(list, u)
    ensures IsSubsequence(r, list)
  {
    if list == [] then []
    else if list[0].email == email then DropEmail(list[1..], email)
    else
      var rest := DropEmail(list[1..], email);
      assert ([list[0]] + rest)[1..] == rest;
      [list[0]] + rest
  }

  /** `handlePermissionChange`: `remove` drops every row with that email; any other level is set
      on exactly the rows with that email. */
  function PermissionChange(list: seq<SharedUser>, email: string, level: Level): (r: seq<SharedUser>)
    ensures level == Remove ==> r == DropEmail(list, email)
    ensures level != Remove ==> |r| == |list|
    ensures level != Remove ==> forall i :: 0 <= i < |list| ==>
              r[i] == (if list[i].email == email then list[i].(level := level) else list[i])
  {
    if level == Remove then DropEmail(list, email)
    else seq(|list|, i requires 0 <= i < |list| => if list[i].email == email then list[i].(level := level) else list[i])
  }

  /** Changing a permission never introduces a second row for an email. */
  lemma PermissionChangeKeepsEmailsDistinct(list: seq<SharedUser>, email: string, level: Level)
    requires DistinctEmails(list)
    ensures DistinctEmails(PermissionChange(list, email, level))
  {
    if level == Remove {
      DropEmailKeepsEmailsDistinct(list, email);
    } else {
      var r := PermissionChange(list, email, level);
      forall i, j | 0 <= i < j < |r| ensures r[i].email != r[j].email {
        assert r[i].email == list[i].email && r[j].email == list[j].email;
      }
    }
  }

  lemma {:induction false} DropEmailKeepsEmailsDistinct(list: seq<SharedUser>, email: string)
    requires DistinctEmails(list)
    ensures DistinctEmails(DropEmail(list, email))
  {
    if list != [] {
      var rest := list[1..];
      assert DistinctEmails(rest) && !Listed(rest, list[0].email) by {
        forall i, j | 0 <= i < j < |rest| ensures rest[i].email != rest[j].email {
          assert rest[i] == list[i + 1] && rest[j] == list[j + 1];
        }
        forall k | 0 <= k < |rest| ensures rest[k].email != list[0].email {
          assert rest[k] == list[k + 1];
        }
      }
      DropEmailKeepsEmailsDistinct(rest, email);
      if list[0].email != email {
        DropEmailKeepsUnlisted(rest, email, list[0].email);
        ConsKeepsEmailsDistinct(list[0], DropEmail(rest, email));
      }
    }
  }

  lemma ConsKeepsEmailsDistinct(u: SharedUser, tail: seq<SharedUser>)
    requires DistinctEmails(tail) && !Listed(tail, u.email)
    ensures DistinctEmails([u] + tail)
  {
    var r := [u] + tail;
    forall i, j | 0 <= i < j < |r| ensures r[i].email != r[j].email {
      assert r[j] == tail[j - 1];
      if i > 0 { assert r[i] == tail[i - 1]; }
    }
  }

  /** Dropping rows never brings in an email the list did not have. */
  lemma {:induction false} DropEmailKeepsUnlisted(list: seq<SharedUser>, email: string, other: string)
    requires !Listed(list, other)
    ensures !Listed(DropEmail(list, email), other)
  {
    if list != [] {
      assert !Listed(list[1..], other) by {
        forall k | 0 <= k < |list[1..]| ensures list[1..][k].email != other {
          assert list[1..][k] == list[k + 1];
        }
      }
      DropEmailKeepsUnlisted(list[1..], email, other);
      if list[0].email != email {
        var tail := DropEmail(list[1..], email);
        forall k | 0 <= k < |[list[0]] + tail| ensures ([list[0]] + tail)[k].email != other {
          if k > 0 { assert ([list[0]] + tail)[k] == tail[k - 1]; }
        }
      }
    }
  }

  datatype PublishRequest = PublishRequest(visibility: Visibility, projectId: Option<string>, accessControl: seq<AccessEntry>)

  function AsEntry(u: SharedUser): AccessEntry {
    AccessEntry(u.email, u.level, u.userId, u.grantedBy)
  }

  /** A row that is published: not the owner's and not marked `remove`. */
  predicate Publishable(u: SharedUser) {
    !u.isOwner && u.level != Remove
  }

  /** The publishable rows of the list: every occurrence of each, in list order, and nothing else. */
  function PublishableRows(list: seq<SharedUser>): (kept: seq<SharedUser>)
    ensures forall u :: u in kept <==> u in list && Publishable(u)
    ensures forall u :: Publishable(u) ==> Count(kept, u) == Count(list, u)
    ensures IsSubsequence(kept, list)
  {
    if list == [] then []
    else if Publishable(list[0]) then
      var rest := PublishableRows(list[1..]);
      assert ([list[0]] + rest)[1..] == rest;
      [list[0]] + rest
    else PublishableRows(list[1..])
  }

  /** The rows that are published, as access entries: exactly the publishable rows, in order. */
  function PublishedEntries(list: seq<SharedUser>): (r: seq<AccessEntry>)
    ensures forall e :: e in r ==> e.level != Remove
    ensures forall e :: e in r ==> exists u :: u in list && Publishable(u) && AsEntry(u) == e
    ensures forall u :: u in list && Publishable(u) ==> AsEntry(u) in r
    ensures |r| == |PublishableRows(list)|
    ensures forall k :: 0 <= k < |r| ==> r[k] == AsEntry(PublishableRows(list)[k])
  {
    if list == [] then []
    else if Publishable(list[0]) then [AsEntry(list[0])] + PublishedEntries(list[1..])
    else PublishedEntries(list[1..])
  }

  /** `handlePublishClick`: the chosen visibility and project, with the published rows. */
  function PublishPayload(list: seq<SharedUser>, visibility: Visibility, projectId: Option<string>): (r: PublishRequest)
    ensures r.visibility == visibility && r.projectId == projectId
    ensures r.accessControl == PublishedEntries(list)
  {
    PublishRequest(visibility, projectId, PublishedEntries(list))
  }

  /** The stored entries that survive opening and publishing untouched: not the owner's email
      and not marked `remove`. */
  function Surviving(existing: seq<AccessEntry>, ownerEmail: string): seq<AccessEntry> {
    if existing == [] then []
    else if existing[0].email != ownerEmail && existing[0].level != Remove then [existing[0]] + Surviving(existing[1..], ownerEmail)
    else Surviving(existing[1..], ownerEmail)
  }

  /** Opening the modal and publishing without edits sends back the stored access list, minus
      the owner's own entries and any marked `remove`, in the same order. */
  lemma {:induction false} PublishUnchangedRoundTrip(owner: Owner, existing: seq<AccessEntry>)
    ensures PublishedEntries(InitialShareList(Some(owner), existing)) == Surviving(existing, owner.email)
  {
    var list := InitialShareList(Some(owner), existing);
    assert list[0].isOwner && list[1..] == OthersOf(existing, Some(owner));
    OthersRoundTrip(owner, existing);
  }

  lemma {:induction false} OthersRoundTrip(owner: Owner, existing: seq<AccessEntry>)
    ensures PublishedEntries(OthersOf(existing, Some(owner))) == Surviving(existing, owner.email)
  {
    if existing != [] {
      OthersRoundTrip(owner, existing[1..]);
      if existing[0].email != owner.email {
        var rest := OthersOf(existing[1..], Some(owner));
        assert OthersOf(existing, Some(owner)) == [AsShared(existing[0])] + rest;
        assert ([AsShared(existing[0])] + rest)[1..] == rest;
      }
    }
  }
}

=== FILE: signup.dfy ===
/** The signup page's form and its submit validation. */
module Signup {
  import opened Credentials

  datatype Field = Name | Email | Password | ConfirmPassword

  datatype SignupForm = SignupForm(name: string, email: string, password: string, confirmPassword: string)

  datatype Outcome = Rejected(verdict: PasswordVerdict) | CallSignup(name: string, email: string, password: string)

  const MinPasswordLength := 8

  function FieldValue(f: SignupForm, field: Field): string {
    match field
    case Name => f.name
    case Email => f.email
    case Password => f.password
    case ConfirmPassword => f.confirmPassword
  }

  /** `handleChange`: the named field takes the typed value and no other field changes. */
  function Change(f: SignupForm, field: Field, value: string): (r: SignupForm)
    ensures FieldValue(r, field) == value
    ensures forall other: Field :: other != field ==> FieldValue(r, other) == FieldValue(f, other)
  {
    match field
    case Name => f.(name := value)
    case Email => f.(email := value)
    case Password => f.(password := value)
    case ConfirmPassword => f.(confirmPassword := value)
  }

  /** Changing a field back to its previous value restores the form. */
  lemma ChangeBackRestores(f: SignupForm, field: Field, value: string)
    ensures Change(Change(f, field, value), field, FieldValue(f, field)) == f
  {
  }

  /** `handleSubmit`: a mismatch is rejected before the length is looked at; only a matching
      password of at least eight characters reaches the signup call, with name, email and
      password. */
  function Submit(f: SignupForm): (r: Outcome)
    ensures r == Rejected(Mismatch) <==> f.password != f.confirmPassword
    ensures r == Rejected(TooShort(MinPasswordLength)) <==> f.password == f.confirmPassword && |f.password| < MinPasswordLength
    ensures r.CallSignup? <==> f.password == f.confirmPassword && |f.password| >= MinPasswordLength
    ensures r.CallSignup? ==> r == CallSignup(f.name, f.email, f.password)
  {
    var v := CheckPassword(f.password, f.confirmPassword, MinPasswordLength);
    if v == Accepted then CallSignup(f.name, f.email, f.password) else Rejected(v)
  }

  /** A short password that does not match is reported as a mismatch, not as too short. */
  lemma MismatchReportedFirst(f: SignupForm)
    requires f.password != f.confirmPassword && |f.password| < MinPasswordLength
    ensures Submit(f) == Rejected(Mismatch)
  {
  }
}

=== FILE: strings.dfy ===
/** String helpers with the meaning the browser gives them, restricted to ASCII. */
module Strings {
  import Arrays

  predicate IsDigit(c: char) {
    '0' <= c <= '9'
  }

  predicate AllDigits(s: string) {
    forall i :: 0 <= i < |s| ==> IsDigit(s[i])
  }

  /** `s.replace(/\D/g, '')`: the decimal digits of `s`, in order. */
  function KeepDigits(s: string): (r: string)
    ensures AllDigits(r)
    ensures |r| <= |s|
    ensures Arrays.IsSubsequence(r, s)
    ensures forall c :: IsDigit(c) ==> Arrays.Count(r, c) == Arrays.Count(s, c)
  {
    if s == [] then []
    else
      var rest := KeepDigits(s[1..]);
      if IsDigit(s[0]) then
        assert ([s[0]] + rest)[1..] == rest;
        [s[0]] + rest
      else
        assert [] + rest == rest;
        rest
  }

  /** Sanitising a string that already holds only digits changes nothing. */
  lemma {:induction false} KeepDigitsOfDigits(s: string)
    requires AllDigits(s)
    ensures KeepDigits(s) == s
  {
    if s != [] {
      assert AllDigits(s[1..]);
      KeepDigitsOfDigits(s[1..]);
    }
  }

  /** `c.toLowerCase()` on ASCII letters. */
  function LowerChar(c: char): (r: char)
    ensures 'A' <= c <= 'Z' ==> r as int == c as int + 32
    ensures !('A' <= c <= 'Z') ==> r == c
  {
    if 'A' <= c <= 'Z' then (c as int + 32) as char else c
  }

  /** `c.toUpperCase()` on ASCII letters. */
  function UpperChar(c: char): (r: char)
    ensures 'a' <= c <= 'z' ==> r as int == c as int - 32
    ensures !('a' <= c <= 'z') ==> r == c
  {
    if 'a' <= c <= 'z' then (c as int - 32) as char else c
  }

  function Lower(s: string): (r: string)
    ensures |r| == |s|
    ensures forall i :: 0 <= i < |s| ==> r[i] == LowerChar(s[i])
  {
    seq(|s|, i requires 0 <= i < |s| => LowerChar(s[i]))
  }

  function Upper(s: string): (r: string)
    ensures |r| == |s|
    ensures forall i :: 0 <= i < |s| ==> r[i] == UpperChar(s[i])
  {
    seq(|s|, i requires 0 <= i < |s| => UpperChar(s[i]))
  }

  /** Lower-casing forgets any earlier upper-casing: both compare the same once lowered. */
  lemma LowerOfUpper(s: string)
    ensures Lower(Upper(s)) == Lower(s)
  {
    var a, b := Lower(Upper(s)), Lower(s);
    forall i | 0 <= i < |s| ensures a[i] == b[i] {
      assert a[i] == LowerChar(UpperChar(s[i]));
    }
  }

  /** `hay.includes(needle)`: `needle` occurs in `hay` at some position. */
  predicate Contains(hay: string, needle: string) {
    needle <= hay || (hay != [] && Contains(hay[1..], needle))
  }

  /** `needle` occurs in `hay` starting at position `i`. */
  predicate OccursAt(hay: string, needle: string, i: int) {
    0 <= i && i + |needle| <= |hay| && hay[i..i + |needle|] == needle
  }

  /** `Contains` agrees with the positional reading: some slice of `hay` is `needle`. */
  lemma {:induction false} ContainsAt(hay: string, needle: string)
    ensures Contains(hay, needle) <==> exists i :: OccursAt(hay, needle, i)
  {
    if Contains(hay, needle) {
      if needle <= hay {
        assert OccursAt(hay, needle, 0);
      } else {
        ContainsAt(hay[1..], needle);
        var i :| OccursAt(hay[1..], needle, i);
        assert hay[i + 1..i + 1 + |needle|] == needle;
        assert OccursAt(hay, needle, i + 1);
      }
    }
    if exists i :: OccursAt(hay, needle, i) {
      var i :| OccursAt(hay, needle, i);
      if i > 0 {
        assert hay[1..][i - 1..i - 1 + |needle|] == needle;
        assert OccursAt(hay[1..], needle, i - 1);
        ContainsAt(hay[1..], needle);
      }
    }
  }

  function DigitChar(d: nat): (c: char)
    requires d < 10
    ensures IsDigit(c)
  {
    ('0' as int + d) as char
  }

  function DigitValue(c: char): (d: nat)
    requires IsDigit(c)
    ensures d < 10
  {
    c as int - '0' as int
  }

  /** `n.toString()` for a natural number: its decimal digits, no leading zero. */
  function NatToString(n: nat): (s: string)
    ensures |s| >= 1
    ensures AllDigits(s)
    decreases n
  {
    if n < 10 then [DigitChar(n)] else NatToString(n / 10) + [DigitChar(n % 10)]
  }

  /** `parseInt(s, 10)` on a non-empty string of digits. */
  function ParseNat(s: string): (n: nat)
    requires AllDigits(s)
  {
    if s == [] then 0
    else ParseNat(s[..|s| - 1]) * 10 + DigitValue(s[|s| - 1])
  }

  /** Printing then parsing a number gives the number back. */
  lemma {:induction false} ParseNatToString(n: nat)
    ensures ParseNat(NatToString(n)) == n
    decreases n
  {
    var s := NatToString(n);
    if n >= 10 {
      ParseNatToString(n / 10);
      assert s[..|s| - 1] == NatToString(n / 10);
    }
  }

  /** Distinct numbers print differently. */
  lemma NatToStringInjective(m: nat, n: nat)
    requires NatToString(m) == NatToString(n)
    ensures m == n
  {
    ParseNatToString(m);
    ParseNatToString(n);
  }

  /** `s.padStart(width, c)`: prefix copies of `c` until `s` is `width` long. */
  function PadStart(s: string, width: nat, c: char): (r: string)
    ensures |s| >= width ==> r == s
    ensures |s| < width ==> |r| == width
    ensures exists k :: 0 <= k <= |r| && r[k..] == s && forall i :: 0 <= i < k ==> r[i] == c
    decreases width - |s|
  {
    if |s| >= width then
      assert s[0..] == s;
      s
    else
      var r := PadStart([c] + s, width, c);
      var k :| 0 <= k <= |r| && r[k..] == [c] + s && forall i :: 0 <= i < k ==> r[i] == c;
      assert r[k + 1..] == s;
      r
  }

  /** `pieces.join(sep)`: the pieces with one separator between neighbours. */
  function Join(pieces: seq<string>, sep: char): string {
    if pieces == [] then ""
    else if |pieces| == 1 then pieces[0]
    else pieces[0] + [sep] + Join(pieces[1..], sep)
  }

  /** `s.split(sep)`: the pieces between separators, always at least one (possibly empty) piece;
      joining them back with the separator gives `s`. */
  function Split(s: string, sep: char): (r: seq<string>)
    ensures |r| >= 1
    ensures forall i :: 0 <= i < |r| ==> sep !in r[i]
    ensures Join(r, sep) == s
  {
    if s == [] then [""]
    else if s[0] == sep then
      var rest := Split(s[1..], sep);
      assert ([""] + rest)[1..] == rest;
      assert s == [sep] + s[1..];
      [""] + rest
    else
      var rest := Split(s[1..], sep);
      var r := [[s[0]] + rest[0]] + rest[1..];
      assert r[1..] == rest[1..];
      assert s == [s[0]] + s[1..];
      r
  }

  /** Splitting joined pieces that hold no separator gives the pieces back. */
  lemma {:induction false} SplitJoin(pieces: seq<string>, sep: char)
    requires |pieces| >= 1
    requires forall i :: 0 <= i < |pieces| ==> sep !in pieces[i]
    ensures Split(Join(pieces, sep), sep) == pieces
    decreases |Join(pieces, sep)|, |pieces[0]|
  {
    var p := pieces[0];
    if |pieces| == 1 {
      SplitPiece(p, [], sep);
    } else {
      var tail := pieces[1..];
      SplitJoin(tail, sep);
      SplitPiece(p, [sep] + Join(tail, sep), sep);
      assert Join(pieces, sep) == p + ([sep] + Join(tail, sep));
      assert ([sep] + Join(tail, sep))[1..] == Join(tail, sep);
    }
  }

  /** A separator-free prefix ends up at the front of the first piece. */
  lemma {:induction false} SplitPiece(p: string, rest: string, sep: char)
    requires sep !in p
    requires rest == [] || rest[0] == sep
    ensures rest == [] ==> Split(p + rest, sep) == [p]
    ensures rest != [] ==> Split(p + rest, sep) == [p] + Split(rest[1..], sep)
  {
    if p != [] {
      assert (p + rest)[1..] == p[1..] + rest;
      assert sep !in p[1..];
      SplitPiece(p[1..], rest, sep);
      assert p == [p[0]] + p[1..];
    } else {
      assert p + rest == rest;
    }
  }
}

=== FILE: templates.dfy ===
/** The template gallery: the search-and-category filter and the draft a template starts. */
module Templates {
  import opened Wrappers
  import opened FormModel
  import Strings
  import Arrays

  datatype Template = Template(id: string, title: string, description: string, category: string,
                               questions: seq<Question>, design: Option<Design>)

  /** The category value that selects every template. */
  const AllCategories := "all"

  /** The category choices offered, `all` first. */
  const Categories := ["all", "survey", "feedback", "registration", "quiz", "contact"]

  /** The title or the description contains the search term, ignoring ASCII case. */
  predicate MatchesSearch(t: Template, term: string) {
    Strings.Contains(Strings.Lower(t.title), Strings.Lower(term))
    || Strings.Contains(Strings.Lower(t.description), Strings.Lower(term))
  }

  predicate MatchesCategory(t: Template, category: string) {
    category == AllCategories || t.category == category
  }

  predicate Shown(t: Template, term: string, category: string) {
    MatchesSearch(t, term) && MatchesCategory(t, category)
  }

  /** `filteredTemplates`: the templates matching both the search and the category, in their
      original order. */
  function Filter(ts: seq<Template>, term: string, category: string): (r: seq<Template>)
    ensures forall t :: t in r <==> t in ts && Shown(t, term, category)
    ensures Arrays.IsSubsequence(r, ts)
    ensures forall t :: Shown(t, term, category) ==> Arrays.Count(r, t) == Arrays.Count(ts, t)
  {
    if ts == [] then []
    else if Shown(ts[0], term, category) then
      var rest := Filter(ts[1..], term, category);
      assert ([ts[0]] + rest)[1..] == rest;
      [ts[0]] + rest
    else Filter(ts[1..], term, category)
  }

  /** With no search term and every category selected, nothing is filtered out. */
  lemma {:induction false} EmptySearchKeepsAll(ts: seq<Template>)
    ensures Filter(ts, "", AllCategories) == ts
  {
    if ts != [] {
      assert Strings.Lower("") == "";
      assert Shown(ts[0], "", AllCategories);
      EmptySearchKeepsAll(ts[1..]);
    }
  }

  /** Filtering the filtered list again changes nothing. */
  lemma {:induction false} FilterIdempotent(ts: seq<Template>, term: string, category: string)
    ensures Filter(Filter(ts, term, category), term, category) == Filter(ts, term, category)
  {
    if ts != [] {
      FilterIdempotent(ts[1..], term, category);
      if Shown(ts[0], term, category) {
        var rest := Filter(ts[1..], term, category);
        assert ([ts[0]] + rest)[1..] == rest;
      }
    }
  }

  /** Typing the search term in capitals selects the same templates. */
  lemma SearchIgnoresCase(ts: seq<Template>, term: string, category: string)
    ensures Filter(ts, Strings.Upper(term), category) == Filter(ts, term, category)
  {
    Strings.LowerOfUpper(term);
    FilterSameShown(ts, Strings.Upper(term), term, category);
  }

  lemma {:induction false} FilterSameShown(ts: seq<Template>, a: string, b: string, category: string)
    requires Strings.Lower(a) == Strings.Lower(b)
    ensures Filter(ts, a, category) == Filter(ts, b, category)
  {
    if ts != [] {
      FilterSameShown(ts[1..], a, b, category);
    }
  }

  /** The form a template creates. */
  datatype NewForm = NewForm(title: string, description: string, questions: seq<Question>,
                             design: Option<Design>, status: string)

  /** `handleUseTemplate`: a draft carrying the template's title, description, questions and
      design. */
  function UseTemplate(t: Template): (r: NewForm)
    ensures r.status == "draft"
    ensures r.title == t.title && r.description == t.description
    ensures r.questions == t.questions && r.design == t.design
  {
    NewForm(t.title, t.description, t.questions, t.design, "draft")
  }

  /** Two templates give the same draft exactly when they agree on title, description,
      questions and design: the id and the category are not carried over. */
  lemma SameDraftIffSameContent(a: Template, b: Template)
    ensures UseTemplate(a) == UseTemplate(b) <==>
            a.title == b.title && a.description == b.description && a.questions == b.questions && a.design == b.design
  {
  }

  /** A draft started from a card on screen still shows the search term, ignoring case, in its
      title or description. */
  lemma DraftMatchesSearch(ts: seq<Template>, term: string, category: string, t: Template)
    requires t in Filter(ts, term, category)
    ensures var d := UseTemplate(t);
            Strings.Contains(Strings.Lower(d.title), Strings.Lower(term))
            || Strings.Contains(Strings.Lower(d.description), Strings.Lower(term))
  {
  }
}

=== FILE: wrappers.dfy ===
/** Option values for JavaScript fields that may be missing, `null` or `undefined`. */
module Wrappers {

  datatype Option<+T> = None | Some(value: T) {

    /** The value held, or `default` when there is none (JavaScript's `x ?? default`). */
    function GetOr(default: T): T {
      match this
      case Some(v) => v
      case None => default
    }
  }

  /** JavaScript truthiness of an optional string: `null`, `undefined` and `''` are falsy. */
  predicate Truthy(s: Option<string>) {
    s.Some? && s.value != ""
  }

  /** `a || b` for two strings: the first unless it is the empty string. */
  function OrElse(a: string, b: string): (r: string)
    ensures r == a || r == b
    ensures r == "" <==> a == "" && b == ""
  {
    if a != "" then a else b
  }

  /** `n || d` for a number: zero (or a missing field, which reads as zero here) is falsy. */
  function OrNum(n: int, d: int): (r: int)
    ensures n != 0 ==> r == n
    ensures n == 0 ==> r == d
  {
    if n != 0 then n else d
  }
}
